=== FILE: README.md ===
# Graph-paper layout arithmetic

The repository is a set of five Python scripts that draw printable graph paper with matplotlib:

- millimetre paper (`papier_millimetre.py`);
- grid paper without axes (`quadrillage_sans_axes.py`);
- grid paper with arrowed, graduated axes (`quadrillage-avec_axes.py`);
- the same with named points (`points_dans_repere.py`);
- the same with named points and sampled function curves (`points_et_fonctions_dans_repere.py`).

Under the drawing calls, every script runs the same layout arithmetic:

- the usable rectangle inside a margin;
- the three-tier grid (heavy 1 cm lines, medium 5 mm lines, fine subdivision lines);
- the crossing of the axes;
- the enumeration of tick multiples between `ceil((lo - axe) / g)` and `floor((hi - axe - g) / g)`, with the edge rules that hide some ticks;
- the mapping between logical coordinates and millimetres on the canvas;
- the choice of the sample that carries a curve's name.

This project models that arithmetic as pure Dafny functions. They return what would be drawn: grid lines with their tier, ticks with their multiple, position, visibility and displayed value, point marks, curve samples and label positions. The lemmas prove how these results relate to one another.

## Modelling choices

- **Numbers.**
  - Sizes in millimetres, margins, axis positions, graduations and tick multiples are `int`.
  - Quantities the code obtains by true division are `real`: the grid step `10 / subdivisions`, scale factors, the millimetres per logical unit, point coordinates and curve samples.
  - Python's `int(...)` is truncation toward zero (`Numerics.Trunc`).
  - `math.floor` / `math.ceil` of a true division are modelled exactly (`Numerics.FloorDiv`, `Numerics.CeilDiv`).
  - The float `%` is `x - m * floor(x / m)` (`Numerics.Mod`).
  - `//` by 2 is Dafny's `/`, which also floors.
- **Tolerances.** The scripts compare floats against a tolerance of `1e-6`. The model compares exactly, over the reals.
- **Errors.** Each generator returns `Result<Diagram, LayoutError>` where the Python code raises:
  - `ValueError` for a scale factor `<= 0` or an unknown name placement;
  - `ZeroDivisionError` for a zero graduation. It is raised only once an axis is actually drawn, or when the function list is not empty.
- **Modules** follow the program's structure:
  - shared pieces: `Numerics`, `Wrappers`, `Layout`, `Grid`, `Ticks`, `Axes`, `Overlay`, `Diagrams`;
  - one module per script: `PapierMillimetre`, `QuadrillageSansAxes`, `QuadrillageAvecAxes`, `PointsDansRepere`, `PointsEtFonctions`.
- **Tick range.** The tick loop is `range(n_min, n_max + 1)` with `n_max = floor((hi - axe - g) / g)`, so the last multiple is included. For a positive graduation the ticks therefore lie in the closed range `[lo, hi - g]`: a centred 20 cm axis with 1 cm graduations enumerates the multiples -10..9 and shows -9..9 (`Ticks.CentredTwentyCentimetres`).
- **Tick labels.** Each script labels tick `n` with its own value, and the model follows each one (`Ticks.TickLabel`):
  - `points_et_fonctions_dans_repere.py` shows `n * facteur`;
  - `quadrillage-avec_axes.py` shows `(n * graduation_mm / 10) * facteur`;
  - `points_dans_repere.py` shows `n`.
- **The origin tick near the arrow.** The docstring of `papier_grille_axes` says the 0 is always shown (quadrillage-avec_axes.py:37). The code shows it only when it is enumerated, that is when the vertical axis lies in `[xmin, xmax - graduation_mm]`. With the vertical axis 5 mm from the right edge, or on it, the horizontal axis has no tick for 0, and this script writes no separate "0" label (`QuadrillageAvecAxes.OriginMissingNearArrow`; derived from the code, not executed). Symmetrically, the vertical axis has no tick for 0 when the horizontal axis lies within one graduation of the top edge. The model keeps the code's behaviour, since the same docstring also forbids ticks next to the arrow.
- **Fractional margins on millimetre paper.** `papier_millimetre.py` tests `(x - xmin) % 10 == 0` with an integer `x`. When `marge_mm` has a fractional part, no line passes either test and every line is fine (`PapierMillimetre.FractionalEdgeAllFine`).

## Model

| member | source | states |
|---|---|---|
| Numerics.Trunc | points_et_fonctions_dans_repere.py:72 | `int(r)`: the greatest whole number not above `r` when `r >= 0`, the least not below it when `r < 0` |
| Numerics.ModZeroIffIntegral | points_et_fonctions_dans_repere.py:76-79 | the float remainder `x % m` is zero exactly when `x / m` has no fractional part |
| Numerics.FloorDivIsIntDiv | points_et_fonctions_dans_repere.py:98 | `math.floor(a / g)` for a positive `g` equals the flooring integer division of `a` by `g` |
| Numerics.FloorDivBounds | points_et_fonctions_dans_repere.py:98 | `floor(a / g) * g <= a < (floor(a / g) + 1) * g` for positive `g` |
| Numerics.CeilDivBounds | points_et_fonctions_dans_repere.py:97 | `(ceil(a / g) - 1) * g < a <= ceil(a / g) * g` for positive `g` |
| Numerics.MulMonotone | points_et_fonctions_dans_repere.py:97-98 | multiplying both sides by a positive graduation preserves and reflects order |
| Numerics.IntegralQuotient | points_et_fonctions_dans_repere.py:76-79 | `a / s` is whole exactly when `s` divides `a` |
| Layout.RectCentredInCanvas | points_et_fonctions_dans_repere.py:49-60 | the canvas leaves exactly `marge_mm` of blank paper on all four sides of a usable rectangle of the requested size, strictly inside the canvas when the margin is positive |
| Layout.CentreCrossingInside | points_et_fonctions_dans_repere.py:62-63 | the default crossing `origin + size // 2` lies in `[origin, origin + size]`, before the far edge when the span is not empty, at the middle or half a millimetre below it |
| Layout.OffsetCrossingInside | points_et_fonctions_dans_repere.py:62-63 | an explicit crossing lies in the usable span exactly when its offset is between 0 and the span's length |
| Layout.PlacementCm | points_dans_repere.py:48-56 | no override means the centre; an override of `c` centimetres means an offset of `10 * c` millimetres |
| Layout.Crossing | points_dans_repere.py:48-56 | the default crossing is `size // 2` past the near edge, so twice its offset is `size` or `size - 1`; an explicit crossing is exactly its offset past the near edge |
| Grid.Step | quadrillage_sans_axes.py:53 | the grid step is positive, and `subdivisions` steps make exactly 1 cm when `subdivisions > 0`; otherwise the step is 10 mm |
| Grid.Classify | quadrillage_sans_axes.py:60-63 | a line on the near edge is heavy, and no line is medium when medium lines are not allowed |
| Grid.ClassifyMeaning | quadrillage_sans_axes.py:60-63 | the float-remainder tests mean: heavy exactly on a whole number of centimetres from the near edge, medium exactly (when allowed) on the other whole numbers of half-centimetres |
| Grid.Lines | quadrillage_sans_axes.py:56-64 | the loop over `range(int(span / pas) + 1)` gives exactly that many lines, line `i` at `lo + i * pas` with the whole-number tier of `i` |
| Grid.ClassifyByIndex | quadrillage_sans_axes.py:58-63 | the real-valued `% 10` / `% 5` tests on line `i`'s offset agree with a whole-number rule: heavy iff `subdivisions` divides `i`, medium iff not heavy, `subdivisions >= 5` and `subdivisions` divides `2 i`, fine otherwise |
| Grid.LineAt | quadrillage_sans_axes.py:57-63 | line `i` is at `xmin + i * pas` and carries the whole-number tier of `i` |
| Grid.LinesCoverSpan | quadrillage_sans_axes.py:56-64 | with a non-negative span the lines are never empty, the first is heavy on the near edge, and every line lies between the two edges |
| Grid.LineExistsIff | quadrillage_sans_axes.py:56-58 | line `i` is drawn exactly when `i * pas` still fits in the span: no line missing, none beyond the far edge |
| Grid.LinesAreGrid | quadrillage_sans_axes.py:56-63 | the loop draws exactly `int(span / pas) + 1` lines (none when `span <= -pas`, one on the near edge when `-pas < span < 0`), line `i` at `lo + i * pas` with the whole-number tier of `i` |
| Grid.NegativeSpanLines | quadrillage_sans_axes.py:56-58 | a negative span shorter than one step still gives the single heavy line on the near edge; from one step on it gives no line |
| Grid.NoMediumBelowFive | quadrillage_sans_axes.py:62 | with fewer than five subdivisions no line is medium |
| Grid.MillimetrePattern | quadrillage_sans_axes.py:19-25 | with ten subdivisions line `i` is `i` mm from the edge, heavy iff `i % 10 == 0`, medium iff `i % 10 == 5`, fine otherwise |
| Grid.TwoMillimetreHasNoMedium | quadrillage_sans_axes.py:20-25 | with five subdivisions (2 mm lines) every line is heavy on a whole centimetre and fine elsewhere: the 5 mm tier never appears |
| Grid.GridSheet | points_et_fonctions_dans_repere.py:70-90 | the vertical family is the grid of the usable width and the horizontal family that of the usable height: `int(span / pas) + 1` lines each, line `i` at `min + i * pas` with the whole-number tier of `i`; each covers its span from a heavy line on the near edge; no medium line below five subdivisions |
| Ticks.Enumerate | points_et_fonctions_dans_repere.py:97-100 | the ticks are the consecutive multiples from `ceil((lo - axe) / g)` to `floor((hi - axe - g) / g)`, one per multiple, in increasing order |
| Ticks.Hidden | points_dans_repere.py:101-104 | a tick is hidden only on an edge: on the near edge exactly when it is not the origin, on the far edge exactly when the far-edge rule applies |
| Ticks.LabelValue | points_dans_repere.py:106 | the label under tick `n` is proportional to `n` (`n`, `n * facteur`, or `(n * g / 10) * facteur`), hence `0` at the origin |
| Ticks.EnumeratedIff | points_et_fonctions_dans_repere.py:97-100 | for a positive graduation, multiple `n` is enumerated exactly when `lo <= axe + n * g <= hi - g` |
| Ticks.TicksWithinSpan | points_dans_repere.py:97-100 | every enumerated tick lies at `axe + n * g` in `[lo, hi - g]` |
| Ticks.FarEdgeTestRedundant | points_et_fonctions_dans_repere.py:103-104 | for a positive graduation the far-edge test never hides a tick: both edge rules give the same ticks, hidden exactly when a non-origin tick is on the near edge |
| Ticks.OriginShown | points_et_fonctions_dans_repere.py:101-102 | when the crossing is in the enumerated range, the origin's tick is enumerated, at the crossing, and shown |
| Ticks.DrawnTicksAvoidEdges | points_dans_repere.py:101-104 | no shown tick is on the far edge, and the only one shown on the near edge is the origin |
| Ticks.NegativeGraduationEmpty | points_dans_repere.py:97-99 | with a negative graduation and a non-empty span nothing is enumerated |
| Ticks.CentredTwentyCentimetres | points_dans_repere.py:97-104 | a 20 cm axis centred in a 1 cm margin with 1 cm graduations enumerates 20 ticks, multiples -10..9, all shown but the one on the left edge |
| Axes.AxisTicks | points_et_fonctions_dans_repere.py:94-104 | an axis that divides by the graduation fails exactly on a zero graduation; a guarded axis has no ticks unless the graduation is positive; shown ticks lie in `[lo, hi)` and only the origin is shown on `lo` |
| Axes.DrawnTicksWithinSpan | points_et_fonctions_dans_repere.py:99-104 | over a non-empty span every shown tick lies in `[lo, hi)`, whatever the graduation's sign, and the only one on `lo` is the origin |
| Axes.BuildAxis | points_et_fonctions_dans_repere.py:94-107 | an axis exists only when its crossing is in the perpendicular span; its arrow runs from `lo - depart` to `hi + decal`; it fails only for a zero graduation under the dividing policy; its shown ticks stay in `[lo, hi)` |
| Overlay.ToCanvas | points_dans_repere.py:135-136 | the drawn coordinate reads back as the logical one for a non-zero unit, and the logical origin is drawn on the crossing |
| Overlay.ToLogical | points_et_fonctions_dans_repere.py:141-142 | the logical coordinate is the one the forward mapping sends onto the given canvas coordinate |
| Overlay.MappingRoundTrip | points_et_fonctions_dans_repere.py:141-142 | the logical-to-canvas mapping and its inverse undo each other for a non-zero unit |
| Overlay.PointOnItsTick | points_et_fonctions_dans_repere.py:134-135 | a point whose coordinate is the value printed under tick `n` is drawn exactly on that tick |
| Overlay.MarkScaled | points_et_fonctions_dans_repere.py:129-137 | a point's cross reads back, through the inverse mapping, as its logical coordinates for a non-zero unit, and sits on the crossing in a direction whose unit is zero; its label is shifted by its own offsets or by 2 mm |
| Overlay.GridMarkIsUnitScale | points_dans_repere.py:134-138 | the one-graduation-per-unit mapping is the scaled mapping with factor 1 and the default 2 mm label offsets |
| Overlay.MarkOnGrid | points_dans_repere.py:134-138 | the cross keeps the point's name and reads back as its logical coordinates for a non-zero graduation and sits on the crossing for a zero one; its name is 2 mm right of and 2 mm above it |
| Overlay.Linspace | points_et_fonctions_dans_repere.py:158 | `n` values, the first `a` and, when there are at least two, the last exactly `b` |
| Overlay.ParsePlacement | points_et_fonctions_dans_repere.py:33-34 | "milieu" and "droite" are the only accepted placements, each recognised exactly |
| Overlay.Samples | points_et_fonctions_dans_repere.py:158-161 | `n` samples, each on the graph of the function once read back in logical coordinates |
| Overlay.InsideInset | points_et_fonctions_dans_repere.py:170 | a sample is inside exactly when it is at least 0.5 mm from every edge of the usable rectangle, which needs a rectangle at least 1 mm wide and high |
| Overlay.LastInside | points_et_fonctions_dans_repere.py:170-172 | the greatest index whose sample lies in the rectangle inset by 0.5 mm, or none when no sample does |
| Overlay.NameIndex | points_et_fonctions_dans_repere.py:166-172 | the name index is in range; `len // 2` for "milieu"; for "droite" the last sample inside the inset rectangle, or the last sample when none is inside |
| Overlay.DrawCurve | points_et_fonctions_dans_repere.py:155-175 | `n` samples on the function's graph; a name label exactly when the name is non-empty and there is a sample; the label is on sample `NameIndex` (middle, or last inside the inset rectangle), shifted by the curve's offsets (default 0) |
| Overlay.CurveSpansWidth | points_et_fonctions_dans_repere.py:141-161 | sample `i` is drawn at the fraction `i / (n - 1)` of the usable width, so the first is on the left edge and the last on the right edge |
| PapierMillimetre.UnitLines | papier_millimetre.py:48-53 | one line per whole number of `range(int(min), int(max) + 1)`, in order, each on its whole millimetre |
| PapierMillimetre.UnitLinesIntegralTiers | papier_millimetre.py:49-53 | on a whole-millimetre near edge line `k` is heavy iff `k % 10 == 0`, medium iff `k % 10 == 5`, fine otherwise |
| PapierMillimetre.FractionalEdgeAllFine | papier_millimetre.py:48-53 | with a fractional near edge every line is fine |
| PapierMillimetre.Border | papier_millimetre.py:65-68 | a closed five-vertex outline through the four corners, each side horizontal or vertical |
| PapierMillimetre.PapierMillimetrePng | papier_millimetre.py:21-62 | sizes are `cm * 10` without rounding; the totals and the rectangle leave the margin on every side; the vertical and horizontal lines are the unit lines of `range(int(min), int(max) + 1)` over the rectangle's width and height, for any real size |
| PapierMillimetre.UnitLinesAreMillimetreGrid | papier_millimetre.py:48-61 | on whole-millimetre bounds the per-millimetre loop gives the same `span + 1` lines and tiers as the generic grid with ten subdivisions |
| PapierMillimetre.WholeSizesGiveMillimetreGrid | papier_millimetre.py:21-62 | with whole centimetres the sheet has `largeur_mm + 1` vertical and `hauteur_mm + 1` horizontal lines, those of the millimetre grid |
| QuadrillageSansAxes.PapierGrille | quadrillage_sans_axes.py:29-75 | the canvas is the usable size plus twice the margin; both families hold `int(span / pas) + 1` lines at `min + i * pas` with the whole-number tier of `i`, cover their spans from a heavy first line, and have no medium line below five subdivisions |
| QuadrillageSansAxes.MillimetreSheetPattern | quadrillage_sans_axes.py:19-25 | the documented millimetre sheet, in both directions: line `i` at `i` mm from the near edge, heavy every centimetre, medium at the half-centimetres, fine elsewhere |
| QuadrillageSansAxes.TenCentimetreSheet | quadrillage_sans_axes.py:29-75 | a 10 cm sheet with a 1 mm margin is 102 mm square with 101 lines each way, the first and the last line of each family heavy and on the edges |
| QuadrillageAvecAxes.NameLabel | quadrillage-avec_axes.py:114-116 | an axis name is written exactly when it is non-empty |
| QuadrillageAvecAxes.GraduatedAxis | quadrillage-avec_axes.py:98-116 | an axis (either one) is drawn exactly when its crossing is in the perpendicular span, crossing there, with its arrow from `min - depart` to `max + decal`, carrying its own name exactly when that name is non-empty, without ticks unless the graduation is positive, and otherwise with the near-edge-only enumeration labelled in centimetres |
| QuadrillageAvecAxes.GraduatedAxisTicks | quadrillage-avec_axes.py:103-110 | for a positive graduation a drawn axis carries exactly the multiples in `[min, max - g]`, none reaching the arrow's end, hidden only for a non-origin tick on the near edge |
| QuadrillageAvecAxes.LabelsInCentimetres | quadrillage-avec_axes.py:107-113 | each tick shows its distance from the origin along the axis, converted from millimetres to centimetres, times the axis' factor |
| QuadrillageAvecAxes.SheetAxesTicks | quadrillage-avec_axes.py:119-137 | on the sheet, each drawn axis is named exactly when its name is non-empty and carries multiple `n` exactly when the tick lies in `[min, max - g]` of its own dimension |
| QuadrillageAvecAxes.OriginMissingNearArrow | quadrillage-avec_axes.py:37 | with the vertical axis 5 mm from the right edge or on it, the horizontal axis is drawn but has no tick for 0 |
| QuadrillageAvecAxes.PapierGrilleAxes | quadrillage-avec_axes.py:56-61 | the grid of the usable rectangle; the horizontal axis at `axe_x` with origin `axe_y` and the vertical axis at `axe_y` with origin `axe_x`, each a graduated axis with its own factor and name and present exactly when its crossing is in span; no "0" label, points or curves |
| QuadrillageAvecAxes.ZeroAlwaysShown | quadrillage-avec_axes.py:108-110 | the origin's tick is shown whenever it falls in the enumerated range, even on the near edge |
| PointsDansRepere.PlotPoints | points_dans_repere.py:133-138 | one cross per point, reading back as the point's logical coordinates for a non-zero graduation and drawn on the crossing for a zero one, its name 2 mm right and 2 mm up |
| Diagrams.OriginLabelAt | points_dans_repere.py:130 | the stand-alone "0" is written under the crossing: at the logical origin's abscissa and 3 mm below its ordinate, whatever the unit |
| PointsDansRepere.PointsDansRepere | points_dans_repere.py:92-138 | fails with a division by zero exactly when the graduation is zero and an axis is drawn; otherwise the grid, and each axis exactly when its crossing is in span, crossing at `axe_x` / `axe_y`, its arrow from `min - depart_axes_ext` to `max + decal_fleche`, named "x" / "y", with the two-edge-rule enumeration labelled by multiples; the "0" 3 mm below the crossing; the points |
| PointsDansRepere.EnumerationShowsMultiples | points_dans_repere.py:99-106 | every tick lies a whole number of graduations from the crossing and its label shows that number; it is drawn exactly when it is neither on the near edge away from the crossing nor on the far edge |
| PointsDansRepere.AxesTicksShowMultiples | points_dans_repere.py:92-127 | on both axes of the drawing every tick shows its multiple and obeys both edge rules, and for a positive graduation multiple `n` is present exactly when its tick lies in `[min, max - g]` of the axis' dimension |
| PointsEtFonctions.Tuples | points_et_fonctions_dans_repere.py:145-153 | a specification is drawn exactly when it occurs as a tuple entry, and no more curves than entries |
| PointsEtFonctions.TuplesOfConcat | points_et_fonctions_dans_repere.py:145-153 | the kept curves of a concatenation are the kept curves of each part, in order: every tuple entry once per occurrence, in list order |
| PointsEtFonctions.TuplesOfSingle | points_et_fonctions_dans_repere.py:147-153 | a single tuple entry is kept, anything else skipped |
| PointsEtFonctions.DrawCurves | points_et_fonctions_dans_repere.py:140-175 | fails exactly when the graduation is zero and the function list is not empty; otherwise drawing `i` is the curve of the `i`-th tuple entry, with `nb_points` samples on its graph and its name label at the chosen sample, shifted by its offsets |
| PointsEtFonctions.XAxisOf | points_et_fonctions_dans_repere.py:94-107 | the horizontal axis is drawn exactly when `axe_x` is in the usable height: crossing at `axe_x`, arrow from `xmin - depart_axes_ext` to `xmax + decal_fleche`, named `label_x`, with the two-edge-rule ticks labelled `n * facteur_x`; a zero graduation fails exactly when the axis is drawn |
| PointsEtFonctions.YAxisOf | points_et_fonctions_dans_repere.py:109-122 | the vertical axis is drawn exactly when `axe_y` is in the usable width: crossing at `axe_y`, arrow from `ymin - depart_axes_ext` to `ymax + decal_fleche`, named `label_y`, with the two-edge-rule ticks labelled `m * facteur_y`; a zero graduation fails exactly when the axis is drawn |
| PointsEtFonctions.PointsEtFonctions | points_et_fonctions_dans_repere.py:31-124 | a non-positive factor is rejected first, then an unknown placement, then a zero graduation that reaches a division; on success the grid, the two axes of `XAxisOf` / `YAxisOf` (each drawn exactly when in span, with its ticks), the "0" 3 mm below the crossing, the points and the curves |
| PointsEtFonctions.PlotMarks | points_et_fonctions_dans_repere.py:127-137 | each point's cross reads back as its logical coordinates, or sits on the crossing in a direction whose unit is zero; its label is shifted by its own offsets or by 2 mm |
| PointsEtFonctions.TicksAgreeWithPoints | points_et_fonctions_dans_repere.py:99-106 | tick `n` shows `n * facteur`, and a point with that coordinate is drawn exactly on the tick |

## Left out

- Drawing and output are not modelled: matplotlib figure setup, `annotate`, `plot`, `text`, `savefig`, `plt.close`, the `print` confirmations, the dpi and file-name arguments, and the module-level example calls (papier_millimetre.py:78). These are I/O in a foreign library.
- Stroke colours, line widths, font sizes and text alignment are not modelled. They are cosmetic constants; a grid line carries its `Tier` instead.
- The positions of tick labels and axis names are not modelled, for example `(xg, axe_x - 3)` and `(xmax + decal + 2, axe_x)` at points_et_fonctions_dans_repere.py:94-122. A tick carries only its position and value, and an axis only its name. The stand-alone "0" and the point names are the only text whose position the model states.
- The short tick marks drawn ±2 mm across the axis are not modelled. Only the tick's position is.
- Tick labels are not formatted as text. `fmt_fr` and `_fmt` are float printing, so a tick carries the numeric value it displays.
- Curve clipping (`set_clip_path`) is not modelled. Its correctness lives inside matplotlib.
- Curve colours are not modelled, including the `"black"` default.
- User callables are taken as total functions `real -> real`. A callable that raises, or a tuple too short to hold a callable, is outside the model.
- The tolerances `1e-6` and `1e-12` are replaced by exact comparisons over the reals.
- Python's `int(round(...))` of the centimetre sizes (and of `axe_x_mm` / `axe_y_mm` in `quadrillage-avec_axes.py`) is not modelled. Those generators take their sizes and offsets as whole millimetres.
- Explicit axis positions in `points_dans_repere.py` and `points_et_fonctions_dans_repere.py` are whole centimetres. The scripts also accept fractional centimetres, which would put the crossing off the millimetre grid.
- Point tuples with an options element that is not a dictionary are modelled as points without offsets, which is what the code does with them.
- A negative `nb_points`, which numpy rejects, cannot be expressed, because `nbPoints` is a `nat`.
- Overlay.Linspace: the interior samples use exact real arithmetic, not numpy's floating-point `start + i * step`.

=== FILE: axes.dfy ===
/** One arrowed axis: drawn only when its crossing lies within the usable
    rectangle's perpendicular span, running from `lo - depart` to `hi + decal`
    along its own dimension, with the ticks of `Ticks.Enumerate`. */
module Axes {
  import opened Wrappers
  import opened Ticks

  /** The errors a generator raises before or while laying out its drawing. */
  datatype LayoutError =
    | NonPositiveScale        // a scale factor `<= 0`
    | UnknownNamePlacement    // a function-name placement other than "milieu" / "droite"
    | DivisionByZero          // a zero graduation reaching a true division

  /** How a generator treats the graduation before enumerating ticks. */
  datatype TickPolicy =
    | Strict   // divides by the graduation unconditionally; tests both edges
    | Guarded  // enumerates only when the graduation is positive; tests the near edge

  /** A drawn axis: where it crosses the perpendicular dimension, the two ends
      of its arrow along its own dimension, its ticks and its name label. */
  datatype Axis = Axis(crossing: int, arrowFrom: real, arrowTo: real, ticks: seq<Tick>, name: Option<string>)

  /** The ticks of an axis spanning `[lo, hi]` whose origin is at `axe`. */
  function AxisTicks(lo: int, hi: int, axe: int, g: int, policy: TickPolicy, display: TickLabel)
    : (r: Result<seq<Tick>, LayoutError>)
    ensures r.Failure? <==> policy == Strict && g == 0
    ensures r.Failure? ==> r.error == DivisionByZero
    ensures policy == Guarded && g <= 0 ==> r == Success([])
    ensures r.Success? && lo <= hi ==>
              forall t <- r.value :: t.shown ==> lo <= t.pos < hi && (t.pos == lo ==> t.multiple == 0)
  {
    match policy
    case Strict =>
      if g == 0 then Failure(DivisionByZero)
      else
        var ts := Enumerate(lo, hi, axe, g, NearAndFar, display);
        DrawnTicksWithinSpan(lo, hi, axe, g, NearAndFar, display);
        Success(ts)
    case Guarded =>
      if g > 0 then
        var ts := Enumerate(lo, hi, axe, g, NearOnly, display);
        DrawnTicksWithinSpan(lo, hi, axe, g, NearOnly, display);
        Success(ts)
      else Success([])
  }

  /** Over a non-empty span every drawn tick lies in `[lo, hi)`, and the only
      one drawn on `lo` is the origin, whichever sign the graduation has. */
  lemma DrawnTicksWithinSpan(lo: int, hi: int, axe: int, g: int, rule: EdgeRule, display: TickLabel)
    requires g > 0 || (g < 0 && rule == NearAndFar)
    ensures lo <= hi ==> forall t <- Enumerate(lo, hi, axe, g, rule, display) ::
              t.shown ==> lo <= t.pos < hi && (t.pos == lo ==> t.multiple == 0)
  {
    if g > 0 {
      TicksWithinSpan(lo, hi, axe, g, rule, display);
    } else if lo <= hi {
      NegativeGraduationEmpty(lo, hi, axe, g, rule, display);
    }
    DrawnTicksAvoidEdges(lo, hi, axe, g, rule, display);
  }

  /** The axis running along `[lo, hi]` and crossing the perpendicular span
      `[perpLo, perpHi]` at `crossing`; `axe` is where its origin lies. */
  function BuildAxis(lo: int, hi: int, crossing: int, perpLo: int, perpHi: int, axe: int, g: int,
                     policy: TickPolicy, display: TickLabel, depart: real, decal: real, name: Option<string>)
    : (r: Result<Option<Axis>, LayoutError>)
    ensures !(perpLo <= crossing <= perpHi) ==> r == Success(None)
    ensures perpLo <= crossing <= perpHi ==> (r.Failure? <==> policy == Strict && g == 0)
    ensures r.Success? && r.value.Some? ==>
              && perpLo <= crossing <= perpHi
              && r.value.value.crossing == crossing
              && r.value.value.arrowFrom == lo as real - depart
              && r.value.value.arrowTo == hi as real + decal
              && r.value.value.name == name
    ensures r.Success? && r.value.Some? && lo <= hi ==>
              forall t <- r.value.value.ticks :: t.shown ==> lo <= t.pos < hi && (t.pos == lo ==> t.multiple == 0)
  {
    if !(perpLo <= crossing <= perpHi) then Success(None)
    else
      var ticks :- AxisTicks(lo, hi, axe, g, policy, display);
      Success(Some(Axis(crossing, lo as real - depart, hi as real + decal, ticks, name)))
  }
}

=== FILE: diagram.dfy ===
/** What a generator with axes lays out: the grid, the two optional axes, the
    stand-alone "0" label at the axes' crossing, the point marks and the
    sampled curves. */
module Diagrams {
  import opened Wrappers
  import opened Layout
  import opened Grid
  import opened Axes
  import opened Overlay

  datatype Diagram = Diagram(
    sheet: Sheet,
    xAxis: Option<Axis>,   // the horizontal axis, at height `axe_x`
    yAxis: Option<Axis>,   // the vertical axis, at abscissa `axe_y`
    originLabel: Option<Pt>,
    marks: seq<Mark>,
    curves: seq<CurveDrawing>)

  /** Where the stand-alone "0" is written: 3 mm below the crossing. */
  function OriginLabelAt(axeY: int, axeX: int): (q: Pt)
    ensures forall u: real :: q.x == ToCanvas(axeY, 0.0, u) && ToCanvas(axeX, 0.0, u) - q.y == 3.0
  {
    Pt(axeY as real, axeX as real - 3.0)
  }
}

=== FILE: grid.dfy ===
/** The three-tier grid drawn by every generator: lines every `10/subdivisions`
    millimetres from the near edge of the usable rectangle, each classified as
    a heavy (1 cm), medium (5 mm) or fine (subdivision) line. The same code is
    run once for the vertical lines (along x) and once for the horizontal
    lines (along y). */
module Grid {
  import opened Numerics
  import opened Layout

  /** Visual weight of a grid line. */
  datatype Tier = Fine | Medium | Heavy

  /** One line of the grid: its coordinate across the lines' direction (x for
      a vertical line, y for a horizontal one) and its tier. */
  datatype GridLine = GridLine(pos: real, tier: Tier)

  /** Distance in millimetres between two neighbouring grid lines:
      `10 / subdivisions`, or 10 when `subdivisions` is not positive. */
  function Step(subdivisions: int): (pas: real)
    ensures pas > 0.0
    ensures subdivisions > 0 ==> pas * subdivisions as real == 10.0
    ensures subdivisions <= 0 ==> pas == 10.0
  {
    if subdivisions > 0 then 10.0 / subdivisions as real else 10.0
  }

  /** The tier of a line at distance `offset` from the near edge. A line on a
      whole centimetre is heavy; otherwise, when medium lines are allowed, a
      line on a multiple of 5 mm is medium; every other line is fine. The
      tests are `offset % 10 == 0` and `offset % 5 == 0` on reals. */
  function Classify(offset: real, mediumAllowed: bool): (t: Tier)
    ensures offset == 0.0 ==> t == Heavy
    ensures !mediumAllowed ==> t != Medium
  {
    if Mod(offset, 10.0) == 0.0 then Heavy
    else if mediumAllowed && Mod(offset, 5.0) == 0.0 then Medium
    else Fine
  }

  /** The tests on the float remainder mean: heavy on a whole number of
      centimetres from the near edge, medium (when allowed) on the remaining
      whole numbers of half-centimetres, fine elsewhere. */
  lemma ClassifyMeaning(offset: real, mediumAllowed: bool)
    ensures Classify(offset, mediumAllowed) == Heavy <==> IsIntegral(offset / 10.0)
    ensures Classify(offset, mediumAllowed) == Medium <==>
              mediumAllowed && !IsIntegral(offset / 10.0) && IsIntegral(offset / 5.0)
  {
    ModZeroIffIntegral(offset, 10.0);
    ModZeroIffIntegral(offset, 5.0);
  }

  /** `int(span / pas)`: the index of the last line. */
  function LastIndex(span: int, subdivisions: int): int {
    Trunc(span as real / Step(subdivisions))
  }

  /** The grid lines along one dimension of the usable rectangle, which starts
      at `lo` and is `span` millimetres long: line `i` for every `i` in
      `range(LastIndex + 1)`, at `lo + i * pas`. */
  function Lines(lo: int, span: int, subdivisions: int): (ls: seq<GridLine>)
    ensures |ls| == if LastIndex(span, subdivisions) >= 0 then LastIndex(span, subdivisions) + 1 else 0
    ensures IsGrid(ls, lo, span, subdivisions)
  {
    var n := LastIndex(span, subdivisions);
    var ls := LoopLines(lo, if n >= 0 then n + 1 else 0, subdivisions);
    forall i | 0 <= i < |ls|
      ensures ls[i] == GridLine(lo as real + i as real * Step(subdivisions), TierOfIndex(i, subdivisions))
    {
      LineOfIndexTier(lo, i, subdivisions);
    }
    ls
  }

  /** Line `i` of the loop: at `lo + i * pas`, classified by its offset. */
  function LineOfIndex(lo: int, i: int, subdivisions: int): GridLine {
    var x := lo as real + i as real * Step(subdivisions);
    GridLine(x, Classify(x - lo as real, subdivisions >= 5))
  }

  /** Lines `0 .. count - 1` of the loop. */
  function LoopLines(lo: int, count: nat, subdivisions: int): (ls: seq<GridLine>)
    ensures |ls| == count
    ensures forall i :: 0 <= i < count ==> ls[i] == LineOfIndex(lo, i, subdivisions)
  {
    seq(count, i requires 0 <= i => LineOfIndex(lo, i, subdivisions))
  }

  lemma LineOfIndexTier(lo: int, i: int, subdivisions: int)
    ensures LineOfIndex(lo, i, subdivisions)
            == GridLine(lo as real + i as real * Step(subdivisions), TierOfIndex(i, subdivisions))
  {
    var x := lo as real + i as real * Step(subdivisions);
    assert x - lo as real == i as real * Step(subdivisions);
    ClassifyByIndex(i, subdivisions);
  }

  /** Exact description of the tier in whole numbers: for `subdivisions > 0`
      line `i` is heavy when `subdivisions` divides `i`, medium when it does
      not but divides `2 * i` and medium lines are allowed, fine otherwise.
      With no positive subdivision count the step is 1 cm and every line is
      heavy. */
  function TierOfIndex(i: int, subdivisions: int): Tier {
    if subdivisions <= 0 || i % subdivisions == 0 then Heavy
    else if subdivisions >= 5 && (2 * i) % subdivisions == 0 then Medium
    else Fine
  }

  /** `(i * (10 / s)) / 10 == i / s` and `(i * (10 / s)) / 5 == 2 * i / s`. */
  lemma OffsetQuotients(i: int, s: int)
    requires s > 0
    ensures (i as real * Step(s)) / 10.0 == (i as real) / (s as real)
    ensures (i as real * Step(s)) / 5.0 == ((2 * i) as real) / (s as real)
  {
    var S := s as real;
    var t := Step(s);
    assert t * S == 10.0;
    var a := (i as real) / S;
    assert a * S == i as real;
    assert (i as real * t) * S == (i as real) * 10.0;
    assert (i as real * t) / 10.0 * S == i as real;
  }

  /** The real-valued classification of line `i` agrees with the whole-number
      description `TierOfIndex`. */
  lemma ClassifyByIndex(i: int, subdivisions: int)
    ensures Classify(i as real * Step(subdivisions), subdivisions >= 5) == TierOfIndex(i, subdivisions)
  {
    var off := i as real * Step(subdivisions);
    ModZeroIffIntegral(off, 10.0);
    ModZeroIffIntegral(off, 5.0);
    if subdivisions > 0 {
      OffsetQuotients(i, subdivisions);
      IntegralQuotient(i, subdivisions);
      IntegralQuotient(2 * i, subdivisions);
    } else {
      assert off / 10.0 == i as real;
    }
  }

  /** Line `i` of `Lines` is at `lo + i * pas` and has the tier `TierOfIndex`. */
  lemma LineAt(lo: int, span: int, subdivisions: int, i: int)
    requires 0 <= i < |Lines(lo, span, subdivisions)|
    ensures Lines(lo, span, subdivisions)[i].pos == lo as real + i as real * Step(subdivisions)
    ensures Lines(lo, span, subdivisions)[i].tier == TierOfIndex(i, subdivisions)
  {
    var x := lo as real + i as real * Step(subdivisions);
    assert x - lo as real == i as real * Step(subdivisions);
    ClassifyByIndex(i, subdivisions);
  }

  /** `i * pas <= span` exactly when `i <= floor(span / pas)`. */
  lemma MultipleWithinSpan(i: int, span: int, pas: real)
    requires pas > 0.0 && span >= 0
    ensures i as real * pas <= span as real <==> i <= Trunc(span as real / pas)
  {
    var q := span as real / pas;
    assert q * pas == span as real;
    assert Trunc(q) == q.Floor;
    if i as real * pas <= span as real {
      assert i as real <= q;
    } else {
      assert i as real > q;
    }
  }

  /** `ls` starts with a heavy line on `lo` and stays within `[lo, hi]`. */
  predicate CoversSpan(ls: seq<GridLine>, lo: int, hi: int) {
    && |ls| >= 1
    && ls[0] == GridLine(lo as real, Heavy)
    && forall l <- ls :: lo as real <= l.pos <= hi as real
  }

  /** With a non-negative span the grid stays in the usable rectangle: it is
      never empty, its first line lies on the near edge and is heavy, and
      every line lies between the two edges. */
  lemma LinesCoverSpan(lo: int, span: int, subdivisions: int)
    requires span >= 0
    ensures CoversSpan(Lines(lo, span, subdivisions), lo, lo + span)
  {
    var ls := Lines(lo, span, subdivisions);
    LastIndexNatural(span, subdivisions);
    LineAt(lo, span, subdivisions, 0);
    forall i | 0 <= i < |ls|
      ensures lo as real <= ls[i].pos <= (lo + span) as real
    {
      LineWithinSpan(lo, span, subdivisions, i);
    }
  }

  lemma LineWithinSpan(lo: int, span: int, subdivisions: int, i: nat)
    requires span >= 0 && i < |Lines(lo, span, subdivisions)|
    ensures lo as real <= Lines(lo, span, subdivisions)[i].pos <= (lo + span) as real
  {
    LineAt(lo, span, subdivisions, i);
    LineExistsIff(lo, span, subdivisions, i);
    assert 0.0 <= i as real * Step(subdivisions);
  }

  lemma LastIndexNatural(span: int, subdivisions: int)
    requires span >= 0
    ensures LastIndex(span, subdivisions) >= 0
  {
    assert span as real / Step(subdivisions) >= 0.0;
  }

  /** No line is missing: with a non-negative span, line `i` is drawn exactly
      when `i * pas` still fits in the span. */
  lemma LineExistsIff(lo: int, span: int, subdivisions: int, i: nat)
    requires span >= 0
    ensures i < |Lines(lo, span, subdivisions)| <==> i as real * Step(subdivisions) <= span as real
  {
    LastIndexNatural(span, subdivisions);
    MultipleWithinSpan(i, span, Step(subdivisions));
  }

  /** Tiers never take a medium value when there are fewer than five
      subdivisions per centimetre. */
  lemma NoMediumBelowFive(lo: int, span: int, subdivisions: int)
    requires subdivisions < 5
    ensures NoMedium(Lines(lo, span, subdivisions))
  {
  }

  predicate NoMedium(ls: seq<GridLine>) {
    forall l <- ls :: l.tier != Medium
  }

  /** With ten subdivisions the whole-number tier is heavy on multiples of 10
      and medium on the odd multiples of 5. */
  lemma TierOfIndexTen(k: int)
    ensures TierOfIndex(k, 10) == Heavy <==> k % 10 == 0
    ensures TierOfIndex(k, 10) == Medium <==> k % 10 == 5
  {
    assert (2 * k) % 10 == 0 <==> k % 5 == 0;
  }

  /** Millimetre paper (`subdivisions = 10`, one line per millimetre): a heavy
      line every 10 mm from the near edge, a medium line half-way between,
      fine lines elsewhere. */
  lemma MillimetrePattern(lo: int, span: int, i: int)
    requires 0 <= i < |Lines(lo, span, 10)|
    ensures Lines(lo, span, 10)[i].pos == (lo + i) as real
    ensures Lines(lo, span, 10)[i].tier == Heavy <==> i % 10 == 0
    ensures Lines(lo, span, 10)[i].tier == Medium <==> i % 10 == 5
    ensures Lines(lo, span, 10)[i].tier == Fine <==> i % 10 !in {0, 5}
  {
    LineAt(lo, span, 10, i);
    assert Step(10) == 1.0;
    TierOfIndexTen(i);
  }

  /** With five subdivisions the lines are 2 mm apart, so no line falls on an
      odd multiple of 5 mm and none is medium: the 5 mm tier never appears. */
  lemma TwoMillimetreHasNoMedium(lo: int, span: int, i: int)
    requires 0 <= i < |Lines(lo, span, 5)|
    ensures Lines(lo, span, 5)[i].tier == (if i % 5 == 0 then Heavy else Fine)
  {
    LineAt(lo, span, 5, i);
  }

  /** `ls` is the grid of a span of `span` millimetres starting at `lo`:
      `int(span / pas) + 1` lines (so none when `span <= -pas`, and a single
      line on the near edge when `-pas < span < 0`, since `int` truncates
      toward zero), line `i` at `lo + i * pas` with the whole-number tier of
      `i`. */
  predicate IsGrid(ls: seq<GridLine>, lo: int, span: int, subdivisions: int) {
    && |ls| == (if LastIndex(span, subdivisions) >= 0 then LastIndex(span, subdivisions) + 1 else 0)
    && forall i :: 0 <= i < |ls| ==>
         ls[i] == GridLine(lo as real + i as real * Step(subdivisions), TierOfIndex(i, subdivisions))
  }

  /** The lines of the loop are exactly the grid: the count of `range(n + 1)`,
      each line's position and each line's tier. */
  lemma LinesAreGrid(lo: int, span: int, subdivisions: int)
    ensures IsGrid(Lines(lo, span, subdivisions), lo, span, subdivisions)
  {
    var ls := Lines(lo, span, subdivisions);
    forall i | 0 <= i < |ls|
      ensures ls[i] == GridLine(lo as real + i as real * Step(subdivisions), TierOfIndex(i, subdivisions))
    {
      LineAt(lo, span, subdivisions, i);
    }
  }

  /** A negative span still draws the near-edge line while it is shorter
      than one step, since `int` truncates `span / pas` toward zero, and
      draws nothing from one step on. */
  lemma NegativeSpanLines(lo: int, span: int, subdivisions: int)
    requires span < 0
    ensures -Step(subdivisions) < span as real ==> Lines(lo, span, subdivisions) == [GridLine(lo as real, Heavy)]
    ensures span as real <= -Step(subdivisions) ==> Lines(lo, span, subdivisions) == []
  {
    var pas := Step(subdivisions);
    var q := span as real / pas;
    assert q * pas == span as real;
    if -pas < span as real {
      assert -1.0 < q < 0.0;
      assert LastIndex(span, subdivisions) == 0;
      LineAt(lo, span, subdivisions, 0);
    } else {
      assert q <= -1.0;
      assert LastIndex(span, subdivisions) < 0;
    }
  }

  /** The grid of a generator: its frame, the vertical lines (positions along
      x, spanning the usable height) and the horizontal lines (positions along
      y, spanning the usable width). */
  datatype Sheet = Sheet(frame: Frame, vertical: seq<GridLine>, horizontal: seq<GridLine>)

  /** Both families of grid lines over the usable rectangle of `f`. */
  function GridSheet(f: Frame, subdivisions: int): (s: Sheet)
    ensures s.frame == f
    ensures s.vertical == Lines(f.XMin(), f.widthMm, subdivisions)
    ensures s.horizontal == Lines(f.YMin(), f.heightMm, subdivisions)
    ensures IsGrid(s.vertical, f.XMin(), f.widthMm, subdivisions)
    ensures IsGrid(s.horizontal, f.YMin(), f.heightMm, subdivisions)
    ensures f.widthMm >= 0 ==> CoversSpan(s.vertical, f.XMin(), f.XMax())
    ensures f.heightMm >= 0 ==> CoversSpan(s.horizontal, f.YMin(), f.YMax())
    ensures subdivisions < 5 ==> NoMedium(s.vertical) && NoMedium(s.horizontal)
  {
    var v := Lines(f.XMin(), f.widthMm, subdivisions);
    var h := Lines(f.YMin(), f.heightMm, subdivisions);
    assert f.widthMm >= 0 ==> CoversSpan(v, f.XMin(), f.XMax()) by {
      if f.widthMm >= 0 { LinesCoverSpan(f.XMin(), f.widthMm, subdivisions); }
    }
    assert f.heightMm >= 0 ==> CoversSpan(h, f.YMin(), f.YMax()) by {
      if f.heightMm >= 0 { LinesCoverSpan(f.YMin(), f.heightMm, subdivisions); }
    }
    LinesAreGrid(f.XMin(), f.widthMm, subdivisions);
    LinesAreGrid(f.YMin(), f.heightMm, subdivisions);
    assert subdivisions < 5 ==> NoMedium(v) && NoMedium(h) by {
      if subdivisions < 5 {
        NoMediumBelowFive(f.XMin(), f.widthMm, subdivisions);
        NoMediumBelowFive(f.YMin(), f.heightMm, subdivisions);
      }
    }
    Sheet(f, v, h)
  }
}

=== FILE: layout.dfy ===
/** Page layout shared by every generator: a usable rectangle of
    `widthMm x heightMm` millimetres surrounded by a blank margin. */
module Layout {
  import opened Wrappers

  /** The usable size and the margin, all in whole millimetres. The canvas
      and the usable rectangle are derived from these three numbers. */
  datatype Frame = Frame(widthMm: int, heightMm: int, margin: int) {

    /** Total canvas width: usable width plus the margin on both sides. */
    function TotalWidth(): int { widthMm + 2 * margin }

    /** Total canvas height: usable height plus the margin on both sides. */
    function TotalHeight(): int { heightMm + 2 * margin }

    function XMin(): int { margin }
    function XMax(): int { margin + widthMm }
    function YMin(): int { margin }
    function YMax(): int { margin + heightMm }
  }

  /** A point of the canvas, in millimetres from its lower-left corner. */
  datatype Pt = Pt(x: real, y: real)

  /** Where an axis crosses the perpendicular dimension: the middle of the
      usable rectangle, or an explicit offset from its near edge. */
  datatype Placement = Centre | Offset(mm: int)

  /** The crossing coordinate on a dimension that starts at `origin` and is
      `size` millimetres long (`//` in the source is a flooring division,
      as is Dafny's `/` by a positive divisor). */
  function Crossing(origin: int, size: int, p: Placement): (c: int)
    ensures p.Centre? ==> size - 1 <= 2 * (c - origin) <= size
    ensures p.Offset? ==> c - origin == p.mm
  {
    match p
    case Centre => origin + size / 2
    case Offset(d) => origin + d
  }

  /** An optional explicit offset: none means the centre. */
  function PlacementOf(offsetMm: Option<int>): Placement {
    match offsetMm
    case None => Centre
    case Some(d) => Offset(d)
  }

  /** An optional axis position in whole centimetres: none means the centre. */
  function PlacementCm(offsetCm: Option<int>): (p: Placement)
    ensures offsetCm.None? <==> p == Centre
    ensures offsetCm.Some? ==> p == Offset(10 * offsetCm.value)
  {
    match offsetCm
    case None => Centre
    case Some(c) => Offset(c * 10)
  }

  /** The usable rectangle sits in the canvas with exactly `margin` millimetres
      of blank paper on each of its four sides, and has the requested size. */
  lemma RectCentredInCanvas(f: Frame)
    ensures f.XMin() - 0 == f.margin && f.TotalWidth() - f.XMax() == f.margin
    ensures f.YMin() - 0 == f.margin && f.TotalHeight() - f.YMax() == f.margin
    ensures f.XMax() - f.XMin() == f.widthMm && f.YMax() - f.YMin() == f.heightMm
    ensures f.margin > 0 && f.widthMm >= 0 ==> 0 < f.XMin() <= f.XMax() < f.TotalWidth()
    ensures f.margin > 0 && f.heightMm >= 0 ==> 0 < f.YMin() <= f.YMax() < f.TotalHeight()
  {
  }

  /** The default crossing lies inside the usable span whenever that span is
      not negative, and strictly before its far edge when it is not empty. */
  lemma CentreCrossingInside(origin: int, size: int)
    requires size >= 0
    ensures origin <= Crossing(origin, size, Centre) <= origin + size
    ensures size > 0 ==> Crossing(origin, size, Centre) < origin + size
    ensures 2 * (Crossing(origin, size, Centre) - origin) in {size - 1, size}
  {
  }

  /** An explicit crossing is inside the span exactly when its offset is
      between zero and the span's length. */
  lemma OffsetCrossingInside(origin: int, size: int, d: int)
    ensures origin <= Crossing(origin, size, Offset(d)) <= origin + size <==> 0 <= d <= size
  {
  }
}

=== FILE: numerics.dfy ===
/** Exact stand-ins for the handful of Python numeric operations the layout
    code relies on: `int(...)` truncation, `math.floor`/`math.ceil` of a true
    division, and the float `%` used to test "is a multiple of 10 / of 5". */
module Numerics {

  /** Python's `int(r)` on a float: truncation toward zero. */
  function Trunc(r: real): (t: int)
    ensures 0.0 <= r ==> t as real <= r < t as real + 1.0
    ensures r < 0.0 ==> t as real - 1.0 < r <= t as real
  {
    if r >= 0.0 then r.Floor else -((-r).Floor)
  }

  /** Truncation is the identity on values that already are integers. */
  lemma TruncOfInt(n: int)
    ensures Trunc(n as real) == n
  {
  }

  /** `x` has no fractional part. */
  predicate IsIntegral(x: real) {
    x.Floor as real == x
  }

  /** `math.floor(a / g)` where `/` is Python's true division. */
  function FloorDiv(a: int, g: int): int
    requires g != 0
  {
    ((a as real) / (g as real)).Floor
  }

  /** `math.ceil(a / g)`, which is `-floor(-(a / g))`. */
  function CeilDiv(a: int, g: int): int
    requires g != 0
  {
    -FloorDiv(-a, g)
  }

  /** Python's float `x % m` for a positive modulus: `x - m * floor(x / m)`. */
  function Mod(x: real, m: real): real
    requires m > 0.0
  {
    x - m * (x / m).Floor as real
  }

  /** The float remainder vanishes exactly when the quotient is whole. */
  lemma ModZeroIffIntegral(x: real, m: real)
    requires m > 0.0
    ensures Mod(x, m) == 0.0 <==> IsIntegral(x / m)
  {
    var q := (x / m).Floor as real;
    assert x == m * (x / m);
    if Mod(x, m) == 0.0 {
      assert m * q == m * (x / m);
    } else {
      assert m * q != m * (x / m);
    }
  }

  /** For a positive divisor, flooring the real quotient agrees with Dafny's
      (Euclidean, hence flooring) integer division. */
  lemma FloorDivIsIntDiv(a: int, g: int)
    requires g > 0
    ensures FloorDiv(a, g) == a / g
  {
    var q := a / g;
    var r := a % g;
    var x := (a as real) / (g as real);
    assert a == q * g + r && 0 <= r < g;
    assert x * (g as real) == a as real;
    assert (q as real) * (g as real) <= a as real;
    assert ((q + 1) as real) * (g as real) > a as real;
    QuotientBounds(x, q, g as real);
  }

  /** If `q * g <= x * g < (q + 1) * g` with `g > 0` then `q` is the floor of `x`. */
  lemma QuotientBounds(x: real, q: int, g: real)
    requires g > 0.0
    requires (q as real) * g <= x * g < ((q + 1) as real) * g
    ensures x.Floor == q
  {
  }

  /** The floor of a quotient by a positive divisor brackets the dividend. */
  lemma FloorDivBounds(a: int, g: int)
    requires g > 0
    ensures FloorDiv(a, g) * g <= a < (FloorDiv(a, g) + 1) * g
  {
    FloorDivIsIntDiv(a, g);
  }

  /** The ceiling of a quotient by a positive divisor brackets the dividend. */
  lemma CeilDivBounds(a: int, g: int)
    requires g > 0
    ensures (CeilDiv(a, g) - 1) * g < a <= CeilDiv(a, g) * g
  {
    FloorDivBounds(-a, g);
  }

  /** Multiplying by a positive factor preserves and reflects order. */
  lemma MulMonotone(a: int, b: int, g: int)
    requires g > 0
    ensures a <= b <==> a * g <= b * g
  {
    if a <= b {
      assert b * g - a * g == (b - a) * g;
    } else {
      assert a * g - b * g == (a - b) * g;
    }
  }

  /** A whole quotient is exactly a divisibility fact. */
  lemma IntegralQuotient(a: int, s: int)
    requires s > 0
    ensures IsIntegral((a as real) / (s as real)) <==> a % s == 0
  {
    FloorDivIsIntDiv(a, s);
    var x := (a as real) / (s as real);
    var q := a / s;
    assert x * (s as real) == a as real;
    if a % s == 0 {
      assert a == q * s;
      assert (q as real) * (s as real) == a as real;
      assert x == q as real;
    }
  }

  /** Dividing a multiple of `g` by `g` gives back the multiplier, exactly. */
  lemma MulDivCancel(n: int, g: int)
    requires g != 0
    ensures (n * g) / g == n && (n * g) % g == 0
  {
    var q := (n * g) / g;
    var r := (n * g) % g;
    assert n * g == q * g + r && 0 <= r < (if g > 0 then g else -g);
    assert (n - q) * g == r;
    if n - q >= 1 {
      if g > 0 { MulMonotone(1, n - q, g); } else { MulMonotone(1, n - q, -g); }
    } else if n - q <= -1 {
      if g > 0 { MulMonotone(n - q, -1, g); } else { MulMonotone(n - q, -1, -g); }
    }
  }

  /** Euclidean division is determined by quotient and remainder. */
  lemma DivUnique(x: int, g: int, q: int, r: int)
    requires g > 0 && x == q * g + r && 0 <= r < g
    ensures x / g == q && x % g == r
  {
    var q' := x / g;
    var r' := x % g;
    assert (q - q') * g == r' - r;
    if q - q' >= 1 {
      MulMonotone(1, q - q', g);
    } else if q - q' <= -1 {
      MulMonotone(q - q', -1, g);
    }
  }
}

=== FILE: overlay.dfy ===
/** Points and function curves drawn over an axis pair. A logical coordinate
    `v` is drawn at `axe + v * unit` millimetres, where `axe` is the crossing
    of the perpendicular axis and `unit` the number of millimetres per
    logical unit (`graduation / factor`). */
module Overlay {
  import opened Wrappers
  import opened Layout
  import opened Ticks

  /** Millimetres per logical unit along an axis: `graduation_mm / facteur`. */
  function UnitMm(g: int, factor: real): (u: real)
    requires factor > 0.0
    ensures u * factor == g as real
    ensures g != 0 ==> u != 0.0
  {
    g as real / factor
  }

  /** Logical coordinate to canvas millimetres. */
  function ToCanvas(axe: int, v: real, unit: real): (c: real)
    ensures unit != 0.0 ==> (c - axe as real) / unit == v
    ensures v == 0.0 ==> c == axe as real
  {
    axe as real + v * unit
  }

  /** Canvas millimetres back to a logical coordinate: `(c - axe) / unit`. */
  function ToLogical(axe: int, c: real, unit: real): (l: real)
    requires unit != 0.0
    ensures axe as real + l * unit == c
  {
    (c - axe as real) / unit
  }

  /** The two conversions are inverse to each other whenever the unit is not
      zero. */
  lemma MappingRoundTrip(axe: int, v: real, c: real, unit: real)
    requires unit != 0.0
    ensures ToLogical(axe, ToCanvas(axe, v, unit), unit) == v
    ensures ToCanvas(axe, ToLogical(axe, c, unit), unit) == c
  {
    var d := c - axe as real;
    assert (d / unit) * unit == d;
    assert (v * unit) / unit == v;
  }

  /** A point whose coordinate is the value printed under tick `n` (that is
      `n * factor`) is drawn exactly on that tick, `n * g` millimetres from
      the crossing: the point mapping and the tick labels agree. */
  lemma PointOnItsTick(axe: int, n: int, g: int, factor: real)
    requires factor > 0.0
    ensures ToCanvas(axe, LabelValue(Scaled(factor), n), UnitMm(g, factor)) == (axe + n * g) as real
  {
    var u := UnitMm(g, factor);
    assert u * factor == g as real;
    assert (n as real * factor) * u == n as real * (u * factor);
  }

  /** A named point as the caller gives it, in logical units. */
  datatype NamedPoint = NamedPoint(name: string, x: real, y: real)

  /** A named point with optional label offsets (millimetres). */
  datatype PointSpec = PointSpec(point: NamedPoint, offsetX: Option<real>, offsetY: Option<real>)

  /** A drawn point: its name, the cross marker's position and the position
      of its name label. */
  datatype Mark = Mark(name: string, at: Pt, labelAt: Pt)

  /** Label offset used when a point gives none: 2 mm right, 2 mm up. */
  const DefaultPointOffset: real := 2.0

  /** A point drawn with the scaled mapping, its label shifted by the given
      offsets or by the default ones. Reading the marker back through the
      inverse mapping gives the point's logical coordinates. */
  function MarkScaled(axeY: int, axeX: int, unitX: real, unitY: real, p: PointSpec): (m: Mark)
    ensures m.name == p.point.name
    ensures unitX != 0.0 ==> ToLogical(axeY, m.at.x, unitX) == p.point.x
    ensures unitY != 0.0 ==> ToLogical(axeX, m.at.y, unitY) == p.point.y
    ensures unitX == 0.0 ==> m.at.x == axeY as real
    ensures unitY == 0.0 ==> m.at.y == axeX as real
    ensures m.labelAt.x - m.at.x == p.offsetX.GetOr(DefaultPointOffset)
    ensures m.labelAt.y - m.at.y == p.offsetY.GetOr(DefaultPointOffset)
  {
    var at := Pt(ToCanvas(axeY, p.point.x, unitX), ToCanvas(axeX, p.point.y, unitY));
    assert unitX != 0.0 ==> ToLogical(axeY, at.x, unitX) == p.point.x by {
      if unitX != 0.0 { MappingRoundTrip(axeY, p.point.x, 0.0, unitX); }
    }
    assert unitY != 0.0 ==> ToLogical(axeX, at.y, unitY) == p.point.y by {
      if unitY != 0.0 { MappingRoundTrip(axeX, p.point.y, 0.0, unitY); }
    }
    Mark(p.point.name, at,
         Pt(at.x + p.offsetX.GetOr(DefaultPointOffset), at.y + p.offsetY.GetOr(DefaultPointOffset)))
  }

  /** A point drawn with one graduation per logical unit, its label 2 mm
      right and 2 mm up. */
  function MarkOnGrid(axeY: int, axeX: int, g: int, p: NamedPoint): (m: Mark)
    ensures m.name == p.name
    ensures g != 0 ==> ToLogical(axeY, m.at.x, g as real) == p.x && ToLogical(axeX, m.at.y, g as real) == p.y
    ensures g == 0 ==> m.at == Pt(axeY as real, axeX as real)
    ensures m.labelAt.x - m.at.x == 2.0 && m.labelAt.y - m.at.y == 2.0
  {
    var at := Pt(axeY as real + p.x * g as real, axeX as real + p.y * g as real);
    Mark(p.name, at, Pt(at.x + 2.0, at.y + 2.0))
  }

  /** The one-graduation-per-unit mapping is the scaled mapping with a scale
      factor of 1 and the default label offsets. */
  lemma GridMarkIsUnitScale(axeY: int, axeX: int, g: int, p: NamedPoint)
    ensures MarkOnGrid(axeY, axeX, g, p)
         == MarkScaled(axeY, axeX, UnitMm(g, 1.0), UnitMm(g, 1.0), PointSpec(p, None, None))
  {
    assert UnitMm(g, 1.0) == g as real;
  }

  /** `numpy.linspace(a, b, n)`: `n` evenly spaced values from `a` to `b`, the
      last one set to `b` exactly. */
  function Linspace(a: real, b: real, n: nat): (xs: seq<real>)
    ensures |xs| == n
    ensures n >= 1 ==> xs[0] == a
    ensures n >= 2 ==> xs[n - 1] == b
  {
    seq(n, i requires 0 <= i < n =>
          if n > 1 && i == n - 1 then b
          else if n > 1 then a + i as real * ((b - a) / (n - 1) as real)
          else a)
  }

  /** A function to plot: its name, the real function itself, and optional
      offsets for its name label. */
  datatype CurveSpec = CurveSpec(name: string, f: real -> real, offsetX: Option<real>, offsetY: Option<real>)

  /** Where a curve's name goes. */
  datatype NamePlacement = Middle | Rightmost

  /** The two placement keywords the generator accepts. */
  function ParsePlacement(s: string): (r: Option<NamePlacement>)
    ensures r == Some(Middle) <==> s == "milieu"
    ensures r == Some(Rightmost) <==> s == "droite"
    ensures r.None? <==> s !in {"milieu", "droite"}
  {
    if s == "milieu" then Some(Middle)
    else if s == "droite" then Some(Rightmost)
    else None
  }

  /** The sampled curve on the canvas: `n` abscissas spread over the logical
      range `[a, b]`, each mapped with the function's value. */
  function Samples(f: real -> real, a: real, b: real, n: nat, axeY: int, axeX: int, unitX: real, unitY: real)
    : (s: seq<Pt>)
    ensures |s| == n
    ensures unitX != 0.0 && unitY != 0.0 ==>
              forall i :: 0 <= i < n ==> OnGraph(f, s[i], axeY, axeX, unitX, unitY)
  {
    var xs := Linspace(a, b, n);
    var s := seq(n, i requires 0 <= i < n => Pt(ToCanvas(axeY, xs[i], unitX), ToCanvas(axeX, f(xs[i]), unitY)));
    assert unitX != 0.0 && unitY != 0.0 ==>
             forall i :: 0 <= i < n ==> OnGraph(f, s[i], axeY, axeX, unitX, unitY) by {
      if unitX != 0.0 && unitY != 0.0 {
        forall i | 0 <= i < n
          ensures OnGraph(f, s[i], axeY, axeX, unitX, unitY)
        {
          MappingRoundTrip(axeY, xs[i], 0.0, unitX);
          MappingRoundTrip(axeX, f(xs[i]), 0.0, unitY);
        }
      }
    }
    s
  }

  /** The canvas point `p`, read back in logical coordinates, lies on the
      graph of `f`. */
  predicate OnGraph(f: real -> real, p: Pt, axeY: int, axeX: int, unitX: real, unitY: real)
    requires unitX != 0.0 && unitY != 0.0
  {
    ToLogical(axeX, p.y, unitY) == f(ToLogical(axeY, p.x, unitX))
  }

  function Min(a: real, b: real): real { if a <= b then a else b }

  /** How far `p` is from the nearest edge of the usable rectangle (negative
      when it lies outside). */
  function Clearance(p: Pt, fr: Frame): real {
    Min(Min(p.x - fr.XMin() as real, fr.XMax() as real - p.x),
        Min(p.y - fr.YMin() as real, fr.YMax() as real - p.y))
  }

  /** `p` lies in the usable rectangle shrunk by 0.5 mm on every side. */
  predicate InsideInset(p: Pt, fr: Frame): (b: bool)
    ensures b <==> Clearance(p, fr) >= 0.5
    ensures b ==> fr.widthMm >= 1 && fr.heightMm >= 1
  {
    && p.x <= fr.XMax() as real - 0.5
    && p.x >= fr.XMin() as real + 0.5
    && p.y >= fr.YMin() as real + 0.5
    && p.y <= fr.YMax() as real - 0.5
  }

  /** The greatest index of a sample inside the inset rectangle, if any. */
  function LastInside(s: seq<Pt>, fr: Frame): (k: Option<nat>)
    ensures k.Some? ==> k.value < |s| && InsideInset(s[k.value], fr)
    ensures k.Some? ==> forall j :: k.value < j < |s| ==> !InsideInset(s[j], fr)
    ensures k.None? ==> forall j :: 0 <= j < |s| ==> !InsideInset(s[j], fr)
  {
    if |s| == 0 then None
    else if InsideInset(s[|s| - 1], fr) then Some(|s| - 1)
    else LastInside(s[..|s| - 1], fr)
  }

  /** Index of the sample that carries a curve's name: the middle one, or the
      last one inside the inset rectangle (the last sample when none is). */
  function NameIndex(mode: NamePlacement, s: seq<Pt>, fr: Frame): (k: nat)
    requires |s| > 0
    ensures k < |s|
    ensures mode == Middle ==> k == |s| / 2
    ensures mode == Rightmost && (exists j :: 0 <= j < |s| && InsideInset(s[j], fr)) ==>
              InsideInset(s[k], fr) && forall j :: k < j < |s| ==> !InsideInset(s[j], fr)
    ensures mode == Rightmost && (forall j :: 0 <= j < |s| ==> !InsideInset(s[j], fr)) ==> k == |s| - 1
  {
    match mode
    case Middle => |s| / 2
    case Rightmost => LastInside(s, fr).GetOr(|s| - 1)
  }

  /** A drawn curve: its samples and, when it has a name and at least one
      sample, its name label. */
  datatype CurveDrawing = CurveDrawing(samples: seq<Pt>, name: Option<Mark>)

  /** A curve sampled `n` times across the whole usable width, with its name
      placed according to `mode`. */
  function DrawCurve(c: CurveSpec, mode: NamePlacement, n: nat, fr: Frame,
                     axeY: int, axeX: int, unitX: real, unitY: real): (d: CurveDrawing)
    requires unitX != 0.0
    ensures |d.samples| == n
    ensures unitY != 0.0 ==> forall i :: 0 <= i < n ==> OnGraph(c.f, d.samples[i], axeY, axeX, unitX, unitY)
    ensures d.name.Some? <==> c.name != "" && n > 0
    ensures d.name.Some? ==> d.name.value.name == c.name
    ensures d.name.Some? ==> d.name.value.at == d.samples[NameIndex(mode, d.samples, fr)]
    ensures d.name.Some? ==> d.name.value.labelAt.x - d.name.value.at.x == c.offsetX.GetOr(0.0)
    ensures d.name.Some? ==> d.name.value.labelAt.y - d.name.value.at.y == c.offsetY.GetOr(0.0)
  {
    var a := ToLogical(axeY, fr.XMin() as real, unitX);
    var b := ToLogical(axeY, fr.XMax() as real, unitX);
    var s := Samples(c.f, a, b, n, axeY, axeX, unitX, unitY);
    if c.name != "" && |s| > 0 then
      var at := s[NameIndex(mode, s, fr)];
      CurveDrawing(s, Some(Mark(c.name, at, Pt(at.x + c.offsetX.GetOr(0.0), at.y + c.offsetY.GetOr(0.0)))))
    else CurveDrawing(s, None)
  }

  /** The samples run across the whole usable width: the first is drawn on its
      left edge, the last on its right edge, and sample `i` at the fraction
      `i / (n - 1)` of the way, so every sample lies between the two edges. */
  lemma CurveSpansWidth(c: CurveSpec, mode: NamePlacement, n: nat, fr: Frame,
                        axeY: int, axeX: int, unitX: real, unitY: real, i: nat)
    requires unitX != 0.0
    requires n >= 2 && i < n
    ensures var s := DrawCurve(c, mode, n, fr, axeY, axeX, unitX, unitY).samples;
            s[i].x == fr.XMin() as real + (i as real / (n - 1) as real) * (fr.XMax() - fr.XMin()) as real
  {
    var a := ToLogical(axeY, fr.XMin() as real, unitX);
    var b := ToLogical(axeY, fr.XMax() as real, unitX);
    MappingRoundTrip(axeY, 0.0, fr.XMin() as real, unitX);
    MappingRoundTrip(axeY, 0.0, fr.XMax() as real, unitX);
    var xs := Linspace(a, b, n);
    var s := DrawCurve(c, mode, n, fr, axeY, axeX, unitX, unitY).samples;
    assert s == Samples(c.f, a, b, n, axeY, axeX, unitX, unitY);
    assert s[i].x == ToCanvas(axeY, xs[i], unitX);
    var t := i as real / (n - 1) as real;
    LinspaceFraction(a, b, n, i);
    Interpolate(axeY, a, b, unitX, t, fr.XMin() as real, fr.XMax() as real);
  }

  /** With at least two samples, sample `i` sits at the fraction `i / (n - 1)`
      of the way from `a` to `b`. */
  lemma LinspaceFraction(a: real, b: real, n: nat, i: nat)
    requires n >= 2 && i < n
    ensures Linspace(a, b, n)[i] == a + (i as real / (n - 1) as real) * (b - a)
  {
    var t := i as real / (n - 1) as real;
    if i < n - 1 {
      assert i as real * ((b - a) / (n - 1) as real) == t * (b - a);
    } else {
      assert t == 1.0;
    }
  }

  /** Mapping the point at fraction `t` between `a` and `b` gives the point at
      fraction `t` between their images. */
  lemma Interpolate(axe: int, a: real, b: real, unit: real, t: real, lo: real, hi: real)
    requires ToCanvas(axe, a, unit) == lo && ToCanvas(axe, b, unit) == hi
    ensures ToCanvas(axe, a + t * (b - a), unit) == lo + t * (hi - lo)
  {
    assert (a + t * (b - a)) * unit == a * unit + t * (b * unit - a * unit);
  }
}

=== FILE: papier_millimetre.dfy ===
/** `papier_millimetre_png`: black and white millimetre paper. Unlike the other
    generators it keeps the sizes unrounded (`largeur_cm * 10`), draws a line
    at every whole millimetre between `int(min)` and `int(max)`, always allows
    the 5 mm tier, and closes the rectangle with a border. */
module PapierMillimetre {
  import opened Numerics
  import opened Layout
  import opened Grid

  datatype MillimetreSheet = MillimetreSheet(
    totalWidth: real, totalHeight: real,
    xmin: real, xmax: real, ymin: real, ymax: real,
    vertical: seq<GridLine>, horizontal: seq<GridLine>,
    border: seq<Pt>)

  /** One line per whole number in `range(int(lo), int(hi) + 1)`, classified by
      its distance to `lo`. */
  function UnitLines(lo: real, hi: real): (ls: seq<GridLine>)
    ensures |ls| == if Trunc(hi) >= Trunc(lo) then Trunc(hi) - Trunc(lo) + 1 else 0
    ensures forall k :: 0 <= k < |ls| ==> ls[k].pos == (Trunc(lo) + k) as real
    ensures forall l <- ls :: IsIntegral(l.pos) && Trunc(lo) as real <= l.pos <= Trunc(hi) as real
  {
    var first := Trunc(lo);
    var last := Trunc(hi);
    seq(if last >= first then last - first + 1 else 0,
        k requires 0 <= k =>
          var x := first + k;
          GridLine(x as real, Classify(x as real - lo, true)))
  }

  /** On a whole-millimetre near edge the tiers follow the millimetre
      pattern: heavy on every tenth line from the edge, medium half-way
      between, fine elsewhere. */
  lemma UnitLinesIntegralTiers(lo: int, hi: real, k: int)
    requires 0 <= k < |UnitLines(lo as real, hi)|
    ensures UnitLines(lo as real, hi)[k].tier == TierOfIndex(k, 10)
    ensures UnitLines(lo as real, hi)[k].tier == Heavy <==> k % 10 == 0
    ensures UnitLines(lo as real, hi)[k].tier == Medium <==> k % 10 == 5
  {
    var ls := UnitLines(lo as real, hi);
    TruncOfInt(lo);
    assert ls[k].tier == Classify((lo + k) as real - lo as real, true);
    assert (lo + k) as real - lo as real == k as real * Step(10);
    ClassifyByIndex(k, 10);
    TierOfIndexTen(k);
  }

  /** With a fractional near edge (a margin such as 1.5 mm) no line is a
      whole number of millimetres away from it, so neither the `% 10` nor the
      `% 5` test ever succeeds and every line is fine. */
  lemma FractionalEdgeAllFine(lo: real, hi: real)
    requires !IsIntegral(lo)
    ensures forall l <- UnitLines(lo, hi) :: l.tier == Fine
  {
    var ls := UnitLines(lo, hi);
    forall l <- ls
      ensures l.tier == Fine
    {
      var k :| 0 <= k < |ls| && ls[k] == l;
      var x := (Trunc(lo) + k) as real;
      NotWholeAfterShift(x, lo, 10.0);
      NotWholeAfterShift(x, lo, 5.0);
    }
  }

  /** A whole number minus a non-whole one is never a whole multiple of `m`. */
  lemma NotWholeAfterShift(x: real, lo: real, m: real)
    requires IsIntegral(x) && !IsIntegral(lo) && (m == 10.0 || m == 5.0)
    ensures Mod(x - lo, m) != 0.0
  {
    ModZeroIffIntegral(x - lo, m);
    ShiftBackWhole(x, lo, m);
  }

  /** If `x` and `(x - lo) / m` are whole, so is `lo`. */
  lemma ShiftBackWhole(x: real, lo: real, m: real)
    requires IsIntegral(x) && (m == 10.0 || m == 5.0)
    ensures IsIntegral((x - lo) / m) ==> IsIntegral(lo)
  {
    if IsIntegral((x - lo) / m) {
      var q := ((x - lo) / m).Floor;
      assert x - lo == (q as real) * m;
      var w := x.Floor - (if m == 10.0 then 10 * q else 5 * q);
      assert lo == w as real;
    }
  }

  /** The closed outline `[xmin, xmax, xmax, xmin, xmin] x [ymin, ymin, ymax, ymax, ymin]`. */
  function Border(xmin: real, xmax: real, ymin: real, ymax: real): (b: seq<Pt>)
    ensures |b| == 5 && b[0] == b[4]
    ensures {b[0], b[1], b[2], b[3]} == {Pt(xmin, ymin), Pt(xmax, ymin), Pt(xmax, ymax), Pt(xmin, ymax)}
    ensures forall k :: 0 <= k < 4 ==> b[k].x == b[k + 1].x || b[k].y == b[k + 1].y
  {
    [Pt(xmin, ymin), Pt(xmax, ymin), Pt(xmax, ymax), Pt(xmin, ymax), Pt(xmin, ymin)]
  }

  /** The millimetre sheet for a usable size in centimetres and a margin in
      millimetres. */
  function PapierMillimetrePng(largeurCm: real, hauteurCm: real, margeMm: real): (s: MillimetreSheet)
    ensures s.totalWidth - s.xmax == s.xmin == margeMm && s.xmax - s.xmin == largeurCm * 10.0
    ensures s.totalHeight - s.ymax == s.ymin == margeMm && s.ymax - s.ymin == hauteurCm * 10.0
    ensures s.border == Border(s.xmin, s.xmax, s.ymin, s.ymax)
    ensures s.vertical == UnitLines(s.xmin, s.xmax) && s.horizontal == UnitLines(s.ymin, s.ymax)
  {
    var largeurMm := largeurCm * 10.0;
    var hauteurMm := hauteurCm * 10.0;
    var xmin := margeMm;
    var xmax := margeMm + largeurMm;
    var ymin := margeMm;
    var ymax := margeMm + hauteurMm;
    MillimetreSheet(largeurMm + 2.0 * margeMm, hauteurMm + 2.0 * margeMm,
                    xmin, xmax, ymin, ymax,
                    UnitLines(xmin, xmax), UnitLines(ymin, ymax),
                    Border(xmin, xmax, ymin, ymax))
  }

  /** On whole-millimetre bounds the unit lines are exactly the generic grid
      with ten subdivisions per centimetre: `span + 1` lines, one per
      millimetre, heavy every centimetre and medium half-way between. */
  lemma UnitLinesAreMillimetreGrid(lo: int, span: int)
    requires span >= 0
    ensures UnitLines(lo as real, (lo + span) as real) == Lines(lo, span, 10)
    ensures |Lines(lo, span, 10)| == span + 1
  {
    var u := UnitLines(lo as real, (lo + span) as real);
    var g := Lines(lo, span, 10);
    TruncOfInt(lo);
    TruncOfInt(lo + span);
    assert Step(10) == 1.0;
    TruncOfInt(span);
    assert LastIndex(span, 10) == span;
    forall k | 0 <= k < |u|
      ensures u[k] == g[k]
    {
      UnitLineAt(lo, span, k);
    }
  }

  /** The `k`-th unit line over whole-millimetre bounds is the `k`-th line of
      the ten-subdivision grid. */
  lemma UnitLineAt(lo: int, span: int, k: int)
    requires span >= 0 && 0 <= k <= span
    ensures k < |UnitLines(lo as real, (lo + span) as real)| && k < |Lines(lo, span, 10)|
    ensures UnitLines(lo as real, (lo + span) as real)[k] == Lines(lo, span, 10)[k]
  {
    TruncOfInt(lo);
    TruncOfInt(lo + span);
    TruncOfInt(span);
    assert Step(10) == 1.0;
    assert LastIndex(span, 10) == span;
    LineAt(lo, span, 10, k);
    ClassifyByIndex(k, 10);
    assert (lo + k) as real - lo as real == k as real * Step(10);
  }

  /** With whole centimetres and a whole-millimetre margin the sheet carries
      `largeur_mm + 1` vertical and `hauteur_mm + 1` horizontal lines, those of
      the ten-subdivision grid over the usable rectangle. */
  lemma WholeSizesGiveMillimetreGrid(largeurCm: nat, hauteurCm: nat, margeMm: int)
    ensures var s := PapierMillimetrePng(largeurCm as real, hauteurCm as real, margeMm as real);
            && s.vertical == Lines(margeMm, 10 * largeurCm, 10)
            && s.horizontal == Lines(margeMm, 10 * hauteurCm, 10)
            && |s.vertical| == 10 * largeurCm + 1
            && |s.horizontal| == 10 * hauteurCm + 1
  {
    assert margeMm as real + largeurCm as real * 10.0 == (margeMm + 10 * largeurCm) as real;
    assert margeMm as real + hauteurCm as real * 10.0 == (margeMm + 10 * hauteurCm) as real;
    UnitLinesAreMillimetreGrid(margeMm, 10 * largeurCm);
    UnitLinesAreMillimetreGrid(margeMm, 10 * hauteurCm);
  }
}

=== FILE: points_dans_repere.dfy ===
/** `quadrillage_avec_axes` of `points_dans_repere.py`: grid paper with two
    arrowed axes named "x" and "y", one logical unit per graduation, ticks
    labelled with their multiple, a stand-alone "0" under the crossing, and
    named points drawn as crosses. Explicit axis positions are given in
    centimetres from the usable rectangle's near edges. */
module PointsDansRepere {
  import opened Wrappers
  import opened Numerics
  import opened Layout
  import opened Grid
  import opened Ticks
  import opened Axes
  import opened Overlay
  import opened Diagrams

  /** The points, each drawn as a cross one graduation per logical unit from
      the crossing. */
  function PlotPoints(axeY: int, axeX: int, g: int, points: seq<NamedPoint>): (ms: seq<Mark>)
    ensures |ms| == |points|
    ensures forall i :: 0 <= i < |ms| ==> ms[i].name == points[i].name
    ensures g != 0 ==> forall i :: 0 <= i < |ms| ==>
              ToLogical(axeY, ms[i].at.x, g as real) == points[i].x
              && ToLogical(axeX, ms[i].at.y, g as real) == points[i].y
    ensures g == 0 ==> forall i :: 0 <= i < |ms| ==> ms[i].at == Pt(axeY as real, axeX as real)
    ensures forall i :: 0 <= i < |ms| ==> ms[i].labelAt == Pt(ms[i].at.x + 2.0, ms[i].at.y + 2.0)
  {
    var ms := seq(|points|, i requires 0 <= i < |points| => MarkOnGrid(axeY, axeX, g, points[i]));
    assert g != 0 ==> forall i :: 0 <= i < |ms| ==>
              ToLogical(axeY, ms[i].at.x, g as real) == points[i].x
              && ToLogical(axeX, ms[i].at.y, g as real) == points[i].y by {
      if g != 0 {
        forall i | 0 <= i < |ms|
          ensures ToLogical(axeY, ms[i].at.x, g as real) == points[i].x
          ensures ToLogical(axeX, ms[i].at.y, g as real) == points[i].y
        {
          GridMarkIsUnitScale(axeY, axeX, g, points[i]);
        }
      }
    }
    ms
  }

  /** The whole drawing, or the `ZeroDivisionError` a zero graduation raises
      as soon as an axis is drawn. */
  function PointsDansRepere(largeurMm: int, hauteurMm: int, margeMm: int, graduationMm: int,
                            subdivisions: int, points: seq<NamedPoint>,
                            axeXCm: Option<int>, axeYCm: Option<int>,
                            decalFleche: real, departAxesExt: real): (r: Result<Diagram, LayoutError>)
    ensures var axeX := Crossing(margeMm, hauteurMm, PlacementCm(axeXCm));
            var axeY := Crossing(margeMm, largeurMm, PlacementCm(axeYCm));
            && (r.Failure? <==>
                  graduationMm == 0
                  && (margeMm <= axeX <= margeMm + hauteurMm || margeMm <= axeY <= margeMm + largeurMm))
            && (r.Failure? ==> r.error == DivisionByZero)
            && (r.Success? ==>
                 && r.value.sheet == GridSheet(Frame(largeurMm, hauteurMm, margeMm), subdivisions)
                 && (r.value.xAxis.Some? <==> margeMm <= axeX <= margeMm + hauteurMm)
                 && (r.value.yAxis.Some? <==> margeMm <= axeY <= margeMm + largeurMm)
                 && r.value.originLabel == Some(Pt(axeY as real, axeX as real - 3.0))
                 && r.value.marks == PlotPoints(axeY, axeX, graduationMm, points)
                 && r.value.curves == []
                 && (r.value.xAxis.Some? ==>
                       && graduationMm != 0
                       && r.value.xAxis.value.crossing == axeX
                       && r.value.xAxis.value.arrowFrom == margeMm as real - departAxesExt
                       && r.value.xAxis.value.arrowTo == (margeMm + largeurMm) as real + decalFleche
                       && r.value.xAxis.value.name == Some("x")
                       && r.value.xAxis.value.ticks
                          == Enumerate(margeMm, margeMm + largeurMm, axeY, graduationMm, NearAndFar, Multiple))
                 && (r.value.yAxis.Some? ==>
                       && graduationMm != 0
                       && r.value.yAxis.value.crossing == axeY
                       && r.value.yAxis.value.arrowFrom == margeMm as real - departAxesExt
                       && r.value.yAxis.value.arrowTo == (margeMm + hauteurMm) as real + decalFleche
                       && r.value.yAxis.value.name == Some("y")
                       && r.value.yAxis.value.ticks
                          == Enumerate(margeMm, margeMm + hauteurMm, axeX, graduationMm, NearAndFar, Multiple)))
  {
    var f := Frame(largeurMm, hauteurMm, margeMm);
    var axeX := Crossing(f.YMin(), hauteurMm, PlacementCm(axeXCm));
    var axeY := Crossing(f.XMin(), largeurMm, PlacementCm(axeYCm));
    var xAxis :- BuildAxis(f.XMin(), f.XMax(), axeX, f.YMin(), f.YMax(), axeY, graduationMm,
                           Strict, Multiple, departAxesExt, decalFleche, Some("x"));
    var yAxis :- BuildAxis(f.YMin(), f.YMax(), axeY, f.XMin(), f.XMax(), axeX, graduationMm,
                           Strict, Multiple, departAxesExt, decalFleche, Some("y"));
    Success(Diagram(GridSheet(f, subdivisions), xAxis, yAxis, Some(OriginLabelAt(axeY, axeX)),
                    PlotPoints(axeY, axeX, graduationMm, points), []))
  }

  /** The ticks of an axis of this generator, read off the drawing: each sits
      a whole number of graduations from the crossing `axe`, its label shows
      that number, and it is drawn exactly when it is neither on the near edge
      away from the crossing nor on the far edge. */
  predicate MultipleTicks(ts: seq<Tick>, lo: int, hi: int, axe: int, g: int) {
    && g != 0
    && forall t <- ts ::
         && (t.pos - axe) % g == 0
         && t.multiple == (t.pos - axe) / g
         && t.value == ((t.pos - axe) / g) as real
         && (t.shown <==> !((t.pos == lo && t.pos != axe) || t.pos == hi))
  }

  /** The enumeration with both edge rules and multiples as labels. */
  lemma EnumerationShowsMultiples(lo: int, hi: int, axe: int, g: int)
    requires g != 0
    ensures MultipleTicks(Enumerate(lo, hi, axe, g, NearAndFar, Multiple), lo, hi, axe, g)
  {
    var ts := Enumerate(lo, hi, axe, g, NearAndFar, Multiple);
    forall t <- ts
      ensures (t.pos - axe) % g == 0
      ensures t.multiple == (t.pos - axe) / g
      ensures t.value == ((t.pos - axe) / g) as real
      ensures t.shown <==> !((t.pos == lo && t.pos != axe) || t.pos == hi)
    {
      var k :| 0 <= k < |ts| && ts[k] == t;
      TickAt(lo, hi, axe, g, NearAndFar, Multiple, k);
      assert t.pos - axe == t.multiple * g;
      MulDivCancel(t.multiple, g);
      assert t.pos != axe <==> t.multiple != 0;
    }
  }

  /** Both axes of the drawing, named "x" and "y", label their ticks with
      the multiples and apply both edge rules; for a positive graduation the
      multiples are exactly those whose tick lies in `[min, max - graduation]`
      of the axis' own dimension, and no shown tick is on either edge but the
      origin. */
  lemma AxesTicksShowMultiples(largeurMm: int, hauteurMm: int, margeMm: int, graduationMm: int,
                               subdivisions: int, points: seq<NamedPoint>,
                               axeXCm: Option<int>, axeYCm: Option<int>,
                               decalFleche: real, departAxesExt: real, n: int)
    ensures var r := PointsDansRepere(largeurMm, hauteurMm, margeMm, graduationMm, subdivisions, points,
                                      axeXCm, axeYCm, decalFleche, departAxesExt);
            var axeY := Crossing(margeMm, largeurMm, PlacementCm(axeYCm));
            r.Success? && r.value.xAxis.Some? ==>
              && MultipleTicks(r.value.xAxis.value.ticks, margeMm, margeMm + largeurMm, axeY, graduationMm)
              && (graduationMm > 0 ==>
                    (Enumerated(r.value.xAxis.value.ticks, n) <==>
                       margeMm <= axeY + n * graduationMm <= margeMm + largeurMm - graduationMm))
    ensures var r := PointsDansRepere(largeurMm, hauteurMm, margeMm, graduationMm, subdivisions, points,
                                      axeXCm, axeYCm, decalFleche, departAxesExt);
            var axeX := Crossing(margeMm, hauteurMm, PlacementCm(axeXCm));
            r.Success? && r.value.yAxis.Some? ==>
              && MultipleTicks(r.value.yAxis.value.ticks, margeMm, margeMm + hauteurMm, axeX, graduationMm)
              && (graduationMm > 0 ==>
                    (Enumerated(r.value.yAxis.value.ticks, n) <==>
                       margeMm <= axeX + n * graduationMm <= margeMm + hauteurMm - graduationMm))
  {
    var r := PointsDansRepere(largeurMm, hauteurMm, margeMm, graduationMm, subdivisions, points,
                              axeXCm, axeYCm, decalFleche, departAxesExt);
    var axeX := Crossing(margeMm, hauteurMm, PlacementCm(axeXCm));
    var axeY := Crossing(margeMm, largeurMm, PlacementCm(axeYCm));
    if r.Success? {
      DrawnAxisShowsMultiples(r.value.xAxis, margeMm, margeMm + largeurMm, axeY, graduationMm, n);
      DrawnAxisShowsMultiples(r.value.yAxis, margeMm, margeMm + hauteurMm, axeX, graduationMm, n);
    }
  }

  /** An axis drawn with this generator's enumeration shows its multiples. */
  lemma DrawnAxisShowsMultiples(ax: Option<Axis>, lo: int, hi: int, axe: int, g: int, n: int)
    requires ax.Some? ==> g != 0 && ax.value.ticks == Enumerate(lo, hi, axe, g, NearAndFar, Multiple)
    ensures ax.Some? ==>
              && MultipleTicks(ax.value.ticks, lo, hi, axe, g)
              && (g > 0 ==> (Enumerated(ax.value.ticks, n) <==> lo <= axe + n * g <= hi - g))
  {
    if ax.Some? {
      AxisShowsMultiples(lo, hi, axe, g, n);
    }
  }

  /** One axis' enumeration shows its multiples, and for a positive
      graduation holds exactly the multiples whose tick is in `[lo, hi - g]`. */
  lemma AxisShowsMultiples(lo: int, hi: int, axe: int, g: int, n: int)
    requires g != 0
    ensures MultipleTicks(Enumerate(lo, hi, axe, g, NearAndFar, Multiple), lo, hi, axe, g)
    ensures g > 0 ==> (Enumerated(Enumerate(lo, hi, axe, g, NearAndFar, Multiple), n) <==> lo <= axe + n * g <= hi - g)
  {
    EnumerationShowsMultiples(lo, hi, axe, g);
    if g > 0 {
      EnumeratedIff(lo, hi, axe, g, NearAndFar, Multiple, n);
    }
  }
}

=== FILE: points_et_fonctions_dans_repere.dfy ===
/** `quadrillage_avec_axes` of `points_et_fonctions_dans_repere.py`: grid
    paper with two arrowed, named axes whose tick labels are scaled by a factor
    per axis, named points with optional label offsets, and sampled function
    curves whose names are placed in the middle of the curve or on its
    rightmost visible sample. */
module PointsEtFonctions {
  import opened Wrappers
  import opened Layout
  import opened Grid
  import opened Ticks
  import opened Axes
  import opened Overlay
  import opened Diagrams

  /** An entry of the function list: a tuple `(name, f[, colour[, offsets]])`,
      or anything else, which the generator skips. */
  datatype FunctionEntry = Curve(spec: CurveSpec) | NotATuple

  /** The generator's arguments (sizes in whole millimetres, explicit axis
      positions in whole centimetres). */
  datatype Config = Config(
    largeurMm: int, hauteurMm: int, margeMm: int,
    subdivisions: int, graduationMm: int,
    facteurX: real, facteurY: real,
    axeXCm: Option<int>, axeYCm: Option<int>,
    labelX: string, labelY: string,
    points: seq<PointSpec>,
    fonctions: seq<FunctionEntry>,
    positionNomsFonctions: string,
    nbPoints: nat,
    decalFleche: real, departAxesExt: real)
  {
    function FrameOf(): Frame { Frame(largeurMm, hauteurMm, margeMm) }
    function AxeX(): int { Crossing(margeMm, hauteurMm, PlacementCm(axeXCm)) }
    function AxeY(): int { Crossing(margeMm, largeurMm, PlacementCm(axeYCm)) }
    predicate XAxisInSpan() { margeMm <= AxeX() <= margeMm + hauteurMm }
    predicate YAxisInSpan() { margeMm <= AxeY() <= margeMm + largeurMm }
  }

  /** The curves the generator draws: the tuple entries, in order. */
  function Tuples(fs: seq<FunctionEntry>): (cs: seq<CurveSpec>)
    ensures |cs| <= |fs|
    ensures forall c :: c in cs <==> Curve(c) in fs
  {
    if |fs| == 0 then []
    else
      var rest := Tuples(fs[1..]);
      assert forall e :: e in fs <==> e == fs[0] || e in fs[1..];
      match fs[0]
      case Curve(c) => [c] + rest
      case NotATuple => rest
  }

  /** The filter keeps every tuple entry, once per occurrence and in list
      order: it distributes over concatenation ... */
  lemma {:induction false} TuplesOfConcat(a: seq<FunctionEntry>, b: seq<FunctionEntry>)
    ensures Tuples(a + b) == Tuples(a) + Tuples(b)
    decreases |a|
  {
    if |a| == 0 {
      assert a + b == b;
    } else {
      assert (a + b)[1..] == a[1..] + b;
      TuplesOfConcat(a[1..], b);
    }
  }

  /** ... and on a single entry it keeps a tuple and drops anything else. */
  lemma TuplesOfSingle(e: FunctionEntry)
    ensures Tuples([e]) == if e.Curve? then [e.spec] else []
  {
    assert [e][1..] == [];
  }

  /** The curve drawings, or the `ZeroDivisionError` that converting the
      usable width to logical units raises when the graduation is zero and the
      function list is not empty. */
  function DrawCurves(cfg: Config, mode: NamePlacement, unitX: real, unitY: real)
    : (r: Result<seq<CurveDrawing>, LayoutError>)
    requires cfg.graduationMm != 0 ==> unitX != 0.0
    ensures r.Failure? <==> cfg.graduationMm == 0 && |cfg.fonctions| > 0
    ensures r.Failure? ==> r.error == DivisionByZero
    ensures r.Success? ==> |r.value| == |Tuples(cfg.fonctions)|
    ensures r.Success? && cfg.graduationMm == 0 ==> r.value == []
    ensures r.Success? && cfg.graduationMm != 0 ==> forall i :: 0 <= i < |r.value| ==>
              r.value[i] == DrawCurve(Tuples(cfg.fonctions)[i], mode, cfg.nbPoints, cfg.FrameOf(),
                                      cfg.AxeY(), cfg.AxeX(), unitX, unitY)
    ensures r.Success? ==> forall i :: 0 <= i < |r.value| ==> |r.value[i].samples| == cfg.nbPoints
    ensures r.Success? ==> forall i :: 0 <= i < |r.value| ==>
              (r.value[i].name.Some? <==> Tuples(cfg.fonctions)[i].name != "" && cfg.nbPoints > 0)
    ensures r.Success? && unitY != 0.0 ==> forall i, j :: 0 <= i < |r.value| && 0 <= j < cfg.nbPoints ==>
              cfg.graduationMm != 0
              && OnGraph(Tuples(cfg.fonctions)[i].f, r.value[i].samples[j], cfg.AxeY(), cfg.AxeX(), unitX, unitY)
  {
    if |cfg.fonctions| == 0 then Success([])
    else if cfg.graduationMm == 0 then Failure(DivisionByZero)
    else
      var cs := Tuples(cfg.fonctions);
      Success(seq(|cs|, i requires 0 <= i < |cs| =>
                DrawCurve(cs[i], mode, cfg.nbPoints, cfg.FrameOf(), cfg.AxeY(), cfg.AxeX(), unitX, unitY)))
  }

  /** The horizontal axis: drawn when `axe_x` is in the usable height, its
      ticks the two-edge-rule enumeration labelled `n * facteur_x`, failing
      on a zero graduation once drawn. */
  function XAxisOf(cfg: Config): (r: Result<Option<Axis>, LayoutError>)
    ensures r.Failure? <==> cfg.XAxisInSpan() && cfg.graduationMm == 0
    ensures r.Failure? ==> r.error == DivisionByZero
    ensures r.Success? ==> (r.value.Some? <==> cfg.XAxisInSpan())
    ensures r.Success? && r.value.Some? ==>
              && cfg.graduationMm != 0
              && r.value.value.ticks
                 == Enumerate(cfg.margeMm, cfg.margeMm + cfg.largeurMm, cfg.AxeY(), cfg.graduationMm,
                              NearAndFar, Scaled(cfg.facteurX))
    ensures r.Success? && r.value.Some? ==>
              r.value.value == Axis(cfg.AxeX(), cfg.margeMm as real - cfg.departAxesExt,
                                    (cfg.margeMm + cfg.largeurMm) as real + cfg.decalFleche,
                                    r.value.value.ticks, Some(cfg.labelX))
  {
    var f := cfg.FrameOf();
    BuildAxis(f.XMin(), f.XMax(), cfg.AxeX(), f.YMin(), f.YMax(), cfg.AxeY(), cfg.graduationMm,
              Strict, Scaled(cfg.facteurX), cfg.departAxesExt, cfg.decalFleche, Some(cfg.labelX))
  }

  /** The vertical axis: drawn when `axe_y` is in the usable width, its ticks
      the two-edge-rule enumeration labelled `m * facteur_y`, failing on a
      zero graduation once drawn. */
  function YAxisOf(cfg: Config): (r: Result<Option<Axis>, LayoutError>)
    ensures r.Failure? <==> cfg.YAxisInSpan() && cfg.graduationMm == 0
    ensures r.Failure? ==> r.error == DivisionByZero
    ensures r.Success? ==> (r.value.Some? <==> cfg.YAxisInSpan())
    ensures r.Success? && r.value.Some? ==>
              && cfg.graduationMm != 0
              && r.value.value.ticks
                 == Enumerate(cfg.margeMm, cfg.margeMm + cfg.hauteurMm, cfg.AxeX(), cfg.graduationMm,
                              NearAndFar, Scaled(cfg.facteurY))
    ensures r.Success? && r.value.Some? ==>
              r.value.value == Axis(cfg.AxeY(), cfg.margeMm as real - cfg.departAxesExt,
                                    (cfg.margeMm + cfg.hauteurMm) as real + cfg.decalFleche,
                                    r.value.value.ticks, Some(cfg.labelY))
  {
    var f := cfg.FrameOf();
    BuildAxis(f.YMin(), f.YMax(), cfg.AxeY(), f.XMin(), f.XMax(), cfg.AxeX(), cfg.graduationMm,
              Strict, Scaled(cfg.facteurY), cfg.departAxesExt, cfg.decalFleche, Some(cfg.labelY))
  }

  /** The whole drawing, or the error the generator raises: a non-positive
      scale factor, then an unknown name placement, then a zero graduation
      reaching a division. */
  function PointsEtFonctions(cfg: Config): (r: Result<Diagram, LayoutError>)
    ensures cfg.facteurX <= 0.0 || cfg.facteurY <= 0.0 ==> r == Failure(NonPositiveScale)
    ensures cfg.facteurX > 0.0 && cfg.facteurY > 0.0 && cfg.positionNomsFonctions !in {"milieu", "droite"} ==>
              r == Failure(UnknownNamePlacement)
    ensures cfg.facteurX > 0.0 && cfg.facteurY > 0.0 && cfg.positionNomsFonctions in {"milieu", "droite"} ==>
              && (r.Failure? <==>
                    cfg.graduationMm == 0 && (cfg.XAxisInSpan() || cfg.YAxisInSpan() || |cfg.fonctions| > 0))
              && (r.Failure? ==> r.error == DivisionByZero)
    ensures r.Success? ==> r.value.xAxis == XAxisOf(cfg).value && r.value.yAxis == YAxisOf(cfg).value
    ensures r.Success? ==> r.value.sheet == GridSheet(cfg.FrameOf(), cfg.subdivisions)
    ensures r.Success? ==> (r.value.xAxis.Some? <==> cfg.XAxisInSpan())
    ensures r.Success? ==> (r.value.yAxis.Some? <==> cfg.YAxisInSpan())
    ensures r.Success? ==> r.value.originLabel == Some(Pt(cfg.AxeY() as real, cfg.AxeX() as real - 3.0))
    ensures r.Success? ==> cfg.facteurX > 0.0 && cfg.facteurY > 0.0
    ensures r.Success? ==> r.value.marks == PlotMarks(cfg.AxeY(), cfg.AxeX(), UnitMm(cfg.graduationMm, cfg.facteurX),
                                                      UnitMm(cfg.graduationMm, cfg.facteurY), cfg.points)
    ensures r.Success? ==> (r.value.xAxis.Some? ==>
                              && cfg.graduationMm != 0
                              && r.value.xAxis.value.ticks
                                 == Enumerate(cfg.margeMm, cfg.margeMm + cfg.largeurMm, cfg.AxeY(), cfg.graduationMm,
                                              NearAndFar, Scaled(cfg.facteurX)))
    ensures r.Success? ==> (r.value.yAxis.Some? ==>
                              && cfg.graduationMm != 0
                              && r.value.yAxis.value.ticks
                                 == Enumerate(cfg.margeMm, cfg.margeMm + cfg.hauteurMm, cfg.AxeX(), cfg.graduationMm,
                                              NearAndFar, Scaled(cfg.facteurY)))
    ensures r.Success? ==> ParsePlacement(cfg.positionNomsFonctions).Some?
    ensures r.Success? ==> r.value.curves == DrawCurves(cfg, ParsePlacement(cfg.positionNomsFonctions).value,
                                                        UnitMm(cfg.graduationMm, cfg.facteurX),
                                                        UnitMm(cfg.graduationMm, cfg.facteurY)).value
  {
    if cfg.facteurX <= 0.0 || cfg.facteurY <= 0.0 then Failure(NonPositiveScale)
    else
      match ParsePlacement(cfg.positionNomsFonctions)
      case None => Failure(UnknownNamePlacement)
      case Some(mode) => Assemble(cfg, mode)
  }

  /** The drawing once the arguments are validated: the grid, both axes, the
      "0" under the crossing, the points and the curves, or the division by
      zero that the first axis drawn or the first curve raises. */
  function Assemble(cfg: Config, mode: NamePlacement): (r: Result<Diagram, LayoutError>)
    requires cfg.facteurX > 0.0 && cfg.facteurY > 0.0
    ensures r.Failure? <==>
              cfg.graduationMm == 0 && (cfg.XAxisInSpan() || cfg.YAxisInSpan() || |cfg.fonctions| > 0)
    ensures r.Failure? ==> r.error == DivisionByZero
    ensures r.Success? ==>
              && XAxisOf(cfg).Success? && YAxisOf(cfg).Success?
              && r.value.xAxis == XAxisOf(cfg).value && r.value.yAxis == YAxisOf(cfg).value
              && r.value.sheet == GridSheet(cfg.FrameOf(), cfg.subdivisions)
              && r.value.originLabel == Some(Pt(cfg.AxeY() as real, cfg.AxeX() as real - 3.0))
              && r.value.marks == PlotMarks(cfg.AxeY(), cfg.AxeX(), UnitMm(cfg.graduationMm, cfg.facteurX),
                                            UnitMm(cfg.graduationMm, cfg.facteurY), cfg.points)
              && r.value.curves == DrawCurves(cfg, mode, UnitMm(cfg.graduationMm, cfg.facteurX),
                                              UnitMm(cfg.graduationMm, cfg.facteurY)).value
  {
    var unitX := UnitMm(cfg.graduationMm, cfg.facteurX);
    var unitY := UnitMm(cfg.graduationMm, cfg.facteurY);
    var xAxis :- XAxisOf(cfg);
    var yAxis :- YAxisOf(cfg);
    var curves :- DrawCurves(cfg, mode, unitX, unitY);
    Success(Diagram(GridSheet(cfg.FrameOf(), cfg.subdivisions), xAxis, yAxis,
                    Some(OriginLabelAt(cfg.AxeY(), cfg.AxeX())),
                    PlotMarks(cfg.AxeY(), cfg.AxeX(), unitX, unitY, cfg.points), curves))
  }

  /** The points, drawn with the scaled mapping: each reads back as its
      logical coordinates, its label shifted by its own offsets or by 2 mm. */
  function PlotMarks(axeY: int, axeX: int, unitX: real, unitY: real, points: seq<PointSpec>): (ms: seq<Mark>)
    ensures |ms| == |points|
    ensures forall i :: 0 <= i < |ms| ==> ms[i].name == points[i].point.name
    ensures unitX != 0.0 ==> forall i :: 0 <= i < |ms| ==> ToLogical(axeY, ms[i].at.x, unitX) == points[i].point.x
    ensures unitY != 0.0 ==> forall i :: 0 <= i < |ms| ==> ToLogical(axeX, ms[i].at.y, unitY) == points[i].point.y
    ensures unitX == 0.0 ==> forall i :: 0 <= i < |ms| ==> ms[i].at.x == axeY as real
    ensures unitY == 0.0 ==> forall i :: 0 <= i < |ms| ==> ms[i].at.y == axeX as real
    ensures forall i :: 0 <= i < |ms| ==>
              ms[i].labelAt == Pt(ms[i].at.x + points[i].offsetX.GetOr(2.0), ms[i].at.y + points[i].offsetY.GetOr(2.0))
  {
    seq(|points|, i requires 0 <= i < |points| => MarkScaled(axeY, axeX, unitX, unitY, points[i]))
  }

  /** Tick `k` of a scaled axis and the point drawn at its value agree. */
  lemma TickAgreesWithPoint(lo: int, hi: int, axe: int, g: int, facteur: real, k: int)
    requires g != 0 && facteur > 0.0
    requires 0 <= k < |Enumerate(lo, hi, axe, g, NearAndFar, Scaled(facteur))|
    ensures var t := Enumerate(lo, hi, axe, g, NearAndFar, Scaled(facteur))[k];
            && t.value == t.multiple as real * facteur
            && ToCanvas(axe, t.value, UnitMm(g, facteur)) == t.pos as real
  {
    var t := Enumerate(lo, hi, axe, g, NearAndFar, Scaled(facteur))[k];
    TickAt(lo, hi, axe, g, NearAndFar, Scaled(facteur), k);
    PointOnItsTick(axe, t.multiple, g, facteur);
  }

  /** A scaled axis shows `n * facteur` under tick `n`, and a point whose
      coordinate is the value a tick shows is drawn exactly on that tick. */
  lemma TicksAgreeWithPoints(lo: int, hi: int, axe: int, g: int, facteur: real)
    requires g != 0 && facteur > 0.0
    ensures forall t <- Enumerate(lo, hi, axe, g, NearAndFar, Scaled(facteur)) ::
              && t.value == t.multiple as real * facteur
              && ToCanvas(axe, t.value, UnitMm(g, facteur)) == t.pos as real
  {
    var ts := Enumerate(lo, hi, axe, g, NearAndFar, Scaled(facteur));
    forall k | 0 <= k < |ts|
      ensures ts[k].value == ts[k].multiple as real * facteur
      ensures ToCanvas(axe, ts[k].value, UnitMm(g, facteur)) == ts[k].pos as real
    {
      TickAgreesWithPoint(lo, hi, axe, g, facteur, k);
    }
  }
}

=== FILE: quadrillage_avec_axes.dfy ===
/** `papier_grille_axes`: grid paper with two arrowed axes. Axis positions are
    given in millimetres from the usable rectangle's near edges; ticks are
    enumerated only for a positive graduation, only the near-edge rule is
    applied, and the label under tick `n` is `(n * graduation_mm / 10) * facteur`,
    i.e. the tick's distance in centimetres times the scale factor. */
module QuadrillageAvecAxes {
  import opened Wrappers
  import opened Layout
  import opened Grid
  import opened Ticks
  import opened Axes
  import opened Diagrams

  /** An axis name is written only when it is not the empty string. */
  function NameLabel(name: string): (r: Option<string>)
    ensures r.Some? <==> name != ""
    ensures r.Some? ==> r.value == name
  {
    if name != "" then Some(name) else None
  }

  /** One axis of the sheet, running along `[lo, hi]` and crossing the
      perpendicular span `[perpLo, perpHi]` at `crossing`; its origin is at
      `axe` along its own dimension. The horizontal axis is
      `GraduatedAxis(xmin, xmax, axe_x, ymin, ymax, axe_y, ...)`, the vertical
      one `GraduatedAxis(ymin, ymax, axe_y, xmin, xmax, axe_x, ...)`. */
  function GraduatedAxis(lo: int, hi: int, crossing: int, perpLo: int, perpHi: int, axe: int,
                         graduationMm: int, facteur: real, name: string,
                         departAxesExt: real, decalFleche: real): (a: Option<Axis>)
    ensures a.Some? <==> perpLo <= crossing <= perpHi
    ensures a.Some? ==>
              && a.value.crossing == crossing
              && a.value.arrowFrom == lo as real - departAxesExt
              && a.value.arrowTo == hi as real + decalFleche
              && (a.value.name.Some? <==> name != "")
              && (name != "" ==> a.value.name == Some(name))
    ensures a.Some? && graduationMm <= 0 ==> a.value.ticks == []
    ensures a.Some? && graduationMm > 0 ==>
              a.value.ticks == Enumerate(lo, hi, axe, graduationMm, NearOnly, Centimetres(graduationMm, facteur))
  {
    var r := BuildAxis(lo, hi, crossing, perpLo, perpHi, axe, graduationMm,
                       Guarded, Centimetres(graduationMm, facteur), departAxesExt, decalFleche, NameLabel(name));
    r.value
  }

  /** The whole sheet. `axeXMm` / `axeYMm` are the explicit axis positions in
      whole millimetres, or none for the centre. */
  function PapierGrilleAxes(largeurMm: int, hauteurMm: int, margeMm: int, subdivisions: int,
                            graduationMm: int, facteurX: real, facteurY: real,
                            axeXMm: Option<int>, axeYMm: Option<int>,
                            nameX: string, nameY: string,
                            decalFleche: real, departAxesExt: real): (d: Diagram)
    ensures var f := Frame(largeurMm, hauteurMm, margeMm);
            var axeX := Crossing(margeMm, hauteurMm, PlacementOf(axeXMm));
            var axeY := Crossing(margeMm, largeurMm, PlacementOf(axeYMm));
            && d.sheet == GridSheet(f, subdivisions)
            && d.xAxis == GraduatedAxis(f.XMin(), f.XMax(), axeX, f.YMin(), f.YMax(), axeY,
                                        graduationMm, facteurX, nameX, departAxesExt, decalFleche)
            && d.yAxis == GraduatedAxis(f.YMin(), f.YMax(), axeY, f.XMin(), f.XMax(), axeX,
                                        graduationMm, facteurY, nameY, departAxesExt, decalFleche)
            && (d.xAxis.Some? <==> margeMm <= axeX <= margeMm + hauteurMm)
            && (d.yAxis.Some? <==> margeMm <= axeY <= margeMm + largeurMm)
            && d.originLabel.None? && d.marks == [] && d.curves == []
  {
    var f := Frame(largeurMm, hauteurMm, margeMm);
    var axeX := Crossing(f.YMin(), hauteurMm, PlacementOf(axeXMm));
    var axeY := Crossing(f.XMin(), largeurMm, PlacementOf(axeYMm));
    Diagram(GridSheet(f, subdivisions),
            GraduatedAxis(f.XMin(), f.XMax(), axeX, f.YMin(), f.YMax(), axeY,
                          graduationMm, facteurX, nameX, departAxesExt, decalFleche),
            GraduatedAxis(f.YMin(), f.YMax(), axeY, f.XMin(), f.XMax(), axeX,
                          graduationMm, facteurY, nameY, departAxesExt, decalFleche),
            None, [], [])
  }

  /** The ticks of a drawn axis (either of the two): none without a positive
      graduation; otherwise exactly the multiples whose position lies in
      `[lo, hi - graduation]`, none of them reaching the arrow's end, and the
      only one hidden is a non-origin tick on the near edge. */
  lemma GraduatedAxisTicks(lo: int, hi: int, crossing: int, perpLo: int, perpHi: int, axe: int,
                           graduationMm: int, facteur: real, name: string,
                           departAxesExt: real, decalFleche: real, n: int)
    requires perpLo <= crossing <= perpHi && graduationMm > 0
    ensures var a := GraduatedAxis(lo, hi, crossing, perpLo, perpHi, axe, graduationMm, facteur, name,
                                   departAxesExt, decalFleche).value;
            && (Enumerated(a.ticks, n) <==> lo <= axe + n * graduationMm <= hi - graduationMm)
            && (forall t <- a.ticks :: t.pos < hi)
            && (forall t <- a.ticks :: t.shown <==> !(t.pos == lo && t.multiple != 0))
  {
    var disp := Centimetres(graduationMm, facteur);
    EnumeratedIff(lo, hi, axe, graduationMm, NearOnly, disp, n);
    TicksWithinSpan(lo, hi, axe, graduationMm, NearOnly, disp);
    FarEdgeTestRedundant(lo, hi, axe, graduationMm, disp);
  }

  /** Each tick of a drawn axis is labelled with its distance from the
      origin along the axis, converted to centimetres and multiplied by the
      axis' scale factor. */
  lemma LabelsInCentimetres(lo: int, hi: int, crossing: int, perpLo: int, perpHi: int, axe: int,
                            graduationMm: int, facteur: real, name: string,
                            departAxesExt: real, decalFleche: real)
    requires perpLo <= crossing <= perpHi
    ensures forall t <- GraduatedAxis(lo, hi, crossing, perpLo, perpHi, axe, graduationMm, facteur, name,
                                      departAxesExt, decalFleche).value.ticks ::
              t.value == ((t.pos - axe) as real / 10.0) * facteur
  {
    if graduationMm > 0 {
      CentimetreLabels(lo, hi, axe, graduationMm, facteur);
      assert GraduatedAxis(lo, hi, crossing, perpLo, perpHi, axe, graduationMm, facteur, name,
                           departAxesExt, decalFleche).value.ticks
          == Enumerate(lo, hi, axe, graduationMm, NearOnly, Centimetres(graduationMm, facteur));
    }
  }

  /** Every tick of the centimetre enumeration is labelled with its distance
      from the origin in centimetres, times the scale factor. */
  lemma CentimetreLabels(lo: int, hi: int, axe: int, g: int, facteur: real)
    requires g > 0
    ensures forall t <- Enumerate(lo, hi, axe, g, NearOnly, Centimetres(g, facteur)) ::
              t.value == ((t.pos - axe) as real / 10.0) * facteur
  {
    var ts := Enumerate(lo, hi, axe, g, NearOnly, Centimetres(g, facteur));
    forall k | 0 <= k < |ts|
      ensures ts[k].value == ((ts[k].pos - axe) as real / 10.0) * facteur
    {
      CentimetreLabelAt(lo, hi, axe, g, facteur, k);
    }
  }

  /** The `k`-th tick's label is its distance from the origin in centimetres,
      times the scale factor. */
  lemma CentimetreLabelAt(lo: int, hi: int, axe: int, g: int, facteur: real, k: int)
    requires g > 0 && 0 <= k < |Enumerate(lo, hi, axe, g, NearOnly, Centimetres(g, facteur))|
    ensures var t := Enumerate(lo, hi, axe, g, NearOnly, Centimetres(g, facteur))[k];
            t.value == ((t.pos - axe) as real / 10.0) * facteur
  {
    var t := Enumerate(lo, hi, axe, g, NearOnly, Centimetres(g, facteur))[k];
    TickAt(lo, hi, axe, g, NearOnly, Centimetres(g, facteur), k);
    assert t.pos - axe == t.multiple * g;
  }

  /** The origin's tick is drawn whenever it falls in the enumerated range
      `[lo, hi - graduation]`, even on the near edge (axes in the corner). */
  lemma ZeroAlwaysShown(lo: int, hi: int, crossing: int, perpLo: int, perpHi: int, axe: int,
                        graduationMm: int, facteur: real, name: string,
                        departAxesExt: real, decalFleche: real)
    requires perpLo <= crossing <= perpHi
    requires graduationMm > 0 && lo <= axe <= hi - graduationMm
    ensures exists t <- GraduatedAxis(lo, hi, crossing, perpLo, perpHi, axe, graduationMm, facteur, name,
                                      departAxesExt, decalFleche).value.ticks ::
              t.multiple == 0 && t.pos == axe && t.shown
  {
    OriginShown(lo, hi, axe, graduationMm, NearOnly, Centimetres(graduationMm, facteur));
  }

  /** Both axes of the sheet, in the sheet's own coordinates: each drawn axis
      is named exactly when its name is non-empty, and, for a positive
      graduation, carries multiple `n` exactly when `n` graduations from the
      origin stay within `[min, max - graduation]` of its own dimension. */
  lemma SheetAxesTicks(largeurMm: int, hauteurMm: int, margeMm: int, subdivisions: int,
                       graduationMm: int, facteurX: real, facteurY: real,
                       axeXMm: Option<int>, axeYMm: Option<int>,
                       nameX: string, nameY: string,
                       decalFleche: real, departAxesExt: real, n: int)
    requires graduationMm > 0
    ensures var d := PapierGrilleAxes(largeurMm, hauteurMm, margeMm, subdivisions, graduationMm, facteurX, facteurY,
                                      axeXMm, axeYMm, nameX, nameY, decalFleche, departAxesExt);
            var axeX := Crossing(margeMm, hauteurMm, PlacementOf(axeXMm));
            var axeY := Crossing(margeMm, largeurMm, PlacementOf(axeYMm));
            && (d.xAxis.Some? ==>
                  && (d.xAxis.value.name.Some? <==> nameX != "")
                  && (Enumerated(d.xAxis.value.ticks, n) <==>
                        margeMm <= axeY + n * graduationMm <= margeMm + largeurMm - graduationMm))
            && (d.yAxis.Some? ==>
                  && (d.yAxis.value.name.Some? <==> nameY != "")
                  && (Enumerated(d.yAxis.value.ticks, n) <==>
                        margeMm <= axeX + n * graduationMm <= margeMm + hauteurMm - graduationMm))
  {
    var axeX := Crossing(margeMm, hauteurMm, PlacementOf(axeXMm));
    var axeY := Crossing(margeMm, largeurMm, PlacementOf(axeYMm));
    EnumeratedIff(margeMm, margeMm + largeurMm, axeY, graduationMm, NearOnly, Centimetres(graduationMm, facteurX), n);
    EnumeratedIff(margeMm, margeMm + hauteurMm, axeX, graduationMm, NearOnly, Centimetres(graduationMm, facteurY), n);
  }

  /** The origin's tick is not always drawn, whatever the function's
      documentation says: on a 20 cm sheet with a 1 cm margin and 1 cm
      graduations, a vertical axis placed 5 mm from the right edge, or on it,
      leaves the origin outside `[xmin, xmax - graduation]`, so the horizontal
      axis enumerates no tick for multiple 0, and this generator writes no
      separate "0" label. */
  lemma OriginMissingNearArrow(axeYMm: int)
    requires axeYMm in {195, 200}
    ensures var x := PapierGrilleAxes(200, 200, 10, 10, 10, 1.0, 1.0, None, Some(axeYMm), "x", "y", 1.4, 0.8).xAxis;
            && x.Some?
            && forall t <- x.value.ticks :: t.multiple != 0
  {
    var axe := 10 + axeYMm;
    var ts := Enumerate(10, 210, axe, 10, NearOnly, Centimetres(10, 1.0));
    EnumeratedIff(10, 210, axe, 10, NearOnly, Centimetres(10, 1.0), 0);
    forall t <- ts
      ensures t.multiple != 0
    {
      var k :| 0 <= k < |ts| && ts[k] == t;
    }
  }
}

=== FILE: quadrillage_sans_axes.dfy ===
/** `papier_grille`: grid paper without axes, with `subdivisions` lines per
    centimetre, heavy lines every centimetre and medium lines every 5 mm. */
module QuadrillageSansAxes {
  import opened Layout
  import opened Grid

  /** The grid sheet for a usable size and a margin in millimetres. */
  function PapierGrille(largeurMm: int, hauteurMm: int, margeMm: int, subdivisions: int): (s: Sheet)
    ensures s.frame.TotalWidth() == largeurMm + 2 * margeMm
    ensures s.frame.TotalHeight() == hauteurMm + 2 * margeMm
    ensures IsGrid(s.vertical, margeMm, largeurMm, subdivisions)
    ensures IsGrid(s.horizontal, margeMm, hauteurMm, subdivisions)
    ensures largeurMm >= 0 ==> CoversSpan(s.vertical, margeMm, margeMm + largeurMm)
    ensures hauteurMm >= 0 ==> CoversSpan(s.horizontal, margeMm, margeMm + hauteurMm)
    ensures subdivisions < 5 ==> NoMedium(s.vertical) && NoMedium(s.horizontal)
  {
    GridSheet(Frame(largeurMm, hauteurMm, margeMm), subdivisions)
  }

  /** The documented millimetre sheet (`subdivisions = 10`): in both
      directions, line `i` is `i` millimetres from the near edge, heavy when
      `i` is a whole number of centimetres, medium at the half-centimetres and
      fine elsewhere. */
  lemma MillimetreSheetPattern(largeurMm: int, hauteurMm: int, margeMm: int, i: int)
    ensures var s := PapierGrille(largeurMm, hauteurMm, margeMm, 10);
            && (0 <= i < |s.vertical| ==> MillimetreLine(s.vertical[i], margeMm, i))
            && (0 <= i < |s.horizontal| ==> MillimetreLine(s.horizontal[i], margeMm, i))
  {
    var s := PapierGrille(largeurMm, hauteurMm, margeMm, 10);
    if 0 <= i < |s.vertical| {
      MillimetrePattern(margeMm, largeurMm, i);
    }
    if 0 <= i < |s.horizontal| {
      MillimetrePattern(margeMm, hauteurMm, i);
    }
  }

  /** Line `i` of a millimetre grid whose near edge is at `lo`. */
  predicate MillimetreLine(l: GridLine, lo: int, i: int) {
    && l.pos == (lo + i) as real
    && (l.tier == Heavy <==> i % 10 == 0)
    && (l.tier == Medium <==> i % 10 == 5)
    && (l.tier == Fine <==> i % 10 !in {0, 5})
  }

  /** A 10 cm x 10 cm sheet with a 1 mm margin is 102 mm square and has 101
      lines each way, the first on the margin and the last on the far edge,
      both heavy. */
  lemma TenCentimetreSheet()
    ensures var s := PapierGrille(100, 100, 1, 10);
            && s.frame.TotalWidth() == 102 && s.frame.TotalHeight() == 102
            && |s.vertical| == 101 && |s.horizontal| == 101
            && s.vertical[0] == GridLine(1.0, Heavy) && s.vertical[100] == GridLine(101.0, Heavy)
            && s.horizontal[0] == GridLine(1.0, Heavy) && s.horizontal[100] == GridLine(101.0, Heavy)
  {
    var s := PapierGrille(100, 100, 1, 10);
    assert Step(10) == 1.0;
    assert LastIndex(100, 10) == 100;
    MillimetrePattern(1, 100, 100);
  }
}

=== FILE: ticks.dfy ===
/** Tick enumeration along one arrowed axis. The axis crosses its own
    dimension at `axe` (the other axis' crossing); ticks are the multiples `n`
    of the graduation `g` with `n` running from `ceil((lo - axe) / g)` to
    `floor((hi - axe - g) / g)`, each at `axe + n * g`. Edge rules then hide
    the tick on the near edge `lo` unless it is the origin (`n == 0`), and, in
    the generators that test it, the tick on the far edge `hi`. */
module Ticks {
  import opened Numerics

  /** Which edge rules a generator applies. */
  datatype EdgeRule =
    | NearAndFar  // near edge unless n == 0, and the far edge
    | NearOnly    // near edge unless n == 0; the far edge is not tested

  /** What the label under a tick displays for multiple `n`. */
  datatype TickLabel =
    | Multiple                      // `n` itself
    | Scaled(factor: real)          // `n * factor`
    | Centimetres(g: int, factor: real)  // `(n * g / 10) * factor`

  /** An enumerated tick: its multiple, its coordinate along the axis, whether
      the edge rules let it be drawn, and the value its label displays. */
  datatype Tick = Tick(multiple: int, pos: int, shown: bool, value: real)

  /** How much the label grows from one graduation to the next. */
  function PerGraduation(l: TickLabel): real {
    match l
    case Multiple => 1.0
    case Scaled(f) => f
    case Centimetres(g, f) => (g as real / 10.0) * f
  }

  /** The value shown under the tick of multiple `n`: proportional to `n`,
      hence `0` under the origin. */
  function LabelValue(l: TickLabel, n: int): (v: real)
    ensures v == n as real * PerGraduation(l)
    ensures n == 0 ==> v == 0.0
  {
    match l
    case Multiple => n as real
    case Scaled(f) => n as real * f
    case Centimetres(g, f) => ((n * g) as real / 10.0) * f
  }

  /** `n_min = ceil((lo - axe) / g)`. */
  function FirstMultiple(lo: int, axe: int, g: int): int
    requires g != 0
  {
    CeilDiv(lo - axe, g)
  }

  /** `n_max = floor((hi - axe - g) / g)`. */
  function LastMultiple(hi: int, axe: int, g: int): int
    requires g != 0
  {
    FloorDiv(hi - axe - g, g)
  }

  /** The edge rules: a tick is hidden on the near edge unless it is the
      origin, and (under `NearAndFar`) on the far edge. */
  predicate Hidden(rule: EdgeRule, n: int, pos: int, lo: int, hi: int): (h: bool)
    ensures h ==> pos == lo || pos == hi
    ensures pos == lo && pos != hi ==> (h <==> n != 0)
    ensures pos == hi && pos != lo ==> (h <==> rule == NearAndFar)
  {
    (pos == lo && n != 0) || (rule == NearAndFar && pos == hi)
  }

  /** Every tick of `range(n_min, n_max + 1)`, in increasing multiple order. */
  function Enumerate(lo: int, hi: int, axe: int, g: int, rule: EdgeRule, display: TickLabel): (ts: seq<Tick>)
    requires g != 0
    ensures |ts| == if LastMultiple(hi, axe, g) >= FirstMultiple(lo, axe, g)
                    then LastMultiple(hi, axe, g) - FirstMultiple(lo, axe, g) + 1 else 0
    ensures forall k :: 0 <= k < |ts| ==> ts[k].multiple == FirstMultiple(lo, axe, g) + k
  {
    var first := FirstMultiple(lo, axe, g);
    var last := LastMultiple(hi, axe, g);
    seq(if last >= first then last - first + 1 else 0,
        k requires 0 <= k =>
          var n := first + k;
          var pos := axe + n * g;
          Tick(n, pos, !Hidden(rule, n, pos, lo, hi), LabelValue(display, n)))
  }

  /** Membership in the enumeration, in terms of the multiple alone. */
  predicate Enumerated(ts: seq<Tick>, n: int) {
    exists k :: 0 <= k < |ts| && ts[k].multiple == n
  }

  /** The `k`-th enumerated tick, spelled out. */
  lemma TickAt(lo: int, hi: int, axe: int, g: int, rule: EdgeRule, display: TickLabel, k: int)
    requires g != 0
    requires 0 <= k < |Enumerate(lo, hi, axe, g, rule, display)|
    ensures var n := FirstMultiple(lo, axe, g) + k;
            Enumerate(lo, hi, axe, g, rule, display)[k]
              == Tick(n, axe + n * g, !Hidden(rule, n, axe + n * g, lo, hi), LabelValue(display, n))
  {
  }

  /** Every tick's label shows the value of its own multiple. */
  lemma LabelsMatchMultiples(lo: int, hi: int, axe: int, g: int, rule: EdgeRule, display: TickLabel)
    requires g != 0
    ensures forall t <- Enumerate(lo, hi, axe, g, rule, display) :: t.value == LabelValue(display, t.multiple)
  {
    var ts := Enumerate(lo, hi, axe, g, rule, display);
    forall t <- ts
      ensures t.value == LabelValue(display, t.multiple)
    {
      var k :| 0 <= k < |ts| && ts[k] == t;
      TickAt(lo, hi, axe, g, rule, display, k);
    }
  }

  /** For a positive graduation, `n` is enumerated exactly when its tick lies in
      `[lo, hi - g]`: the range computed with `ceil` and `floor` neither misses
      a multiple nor admits one outside the span. */
  lemma EnumeratedIff(lo: int, hi: int, axe: int, g: int, rule: EdgeRule, display: TickLabel, n: int)
    requires g > 0
    ensures Enumerated(Enumerate(lo, hi, axe, g, rule, display), n) <==> lo <= axe + n * g <= hi - g
  {
    var ts := Enumerate(lo, hi, axe, g, rule, display);
    var first := FirstMultiple(lo, axe, g);
    var last := LastMultiple(hi, axe, g);
    CeilDivBounds(lo - axe, g);
    FloorDivBounds(hi - axe - g, g);
    MulMonotone(first, n, g);
    MulMonotone(n, last, g);
    MulMonotone(first - 1, n, g);
    MulMonotone(n, last + 1, g);
    assert (first - 1) * g == first * g - g;
    assert (last + 1) * g == last * g + g;
    if first <= n <= last {
      assert ts[n - first].multiple == n;
    }
  }

  /** For a positive graduation every enumerated tick lies in `[lo, hi - g]`,
      at its multiple of the graduation from the crossing. */
  lemma TicksWithinSpan(lo: int, hi: int, axe: int, g: int, rule: EdgeRule, display: TickLabel)
    requires g > 0
    ensures forall t <- Enumerate(lo, hi, axe, g, rule, display) ::
              t.pos == axe + t.multiple * g && lo <= t.pos <= hi - g
  {
    var ts := Enumerate(lo, hi, axe, g, rule, display);
    forall t <- ts
      ensures t.pos == axe + t.multiple * g && lo <= t.pos <= hi - g
    {
      EnumeratedIff(lo, hi, axe, g, rule, display, t.multiple);
    }
  }

  /** With a positive graduation no tick reaches the far edge, so the far-edge
      test never fires: both rules give the same ticks, and a tick is drawn
      exactly when it is not a non-origin tick on the near edge. */
  lemma FarEdgeTestRedundant(lo: int, hi: int, axe: int, g: int, display: TickLabel)
    requires g > 0
    ensures Enumerate(lo, hi, axe, g, NearAndFar, display) == Enumerate(lo, hi, axe, g, NearOnly, display)
    ensures forall t <- Enumerate(lo, hi, axe, g, NearOnly, display) :: t.shown <==> !(t.pos == lo && t.multiple != 0)
  {
    var a := Enumerate(lo, hi, axe, g, NearAndFar, display);
    var b := Enumerate(lo, hi, axe, g, NearOnly, display);
    forall k | 0 <= k < |a|
      ensures a[k] == b[k]
    {
      TickAt(lo, hi, axe, g, NearAndFar, display, k);
      TickAt(lo, hi, axe, g, NearOnly, display, k);
      EnumeratedIff(lo, hi, axe, g, NearAndFar, display, a[k].multiple);
    }
    assert a == b;
    forall t <- b
      ensures t.shown <==> !(t.pos == lo && t.multiple != 0)
    {
      var k :| 0 <= k < |b| && b[k] == t;
      TickAt(lo, hi, axe, g, NearOnly, display, k);
    }
  }

  /** The origin is never lost to the edge rules: when its tick falls in
      `[lo, hi - g]` it is enumerated and drawn, under either rule. */
  lemma OriginShown(lo: int, hi: int, axe: int, g: int, rule: EdgeRule, display: TickLabel)
    requires g > 0
    requires lo <= axe <= hi - g
    ensures exists t <- Enumerate(lo, hi, axe, g, rule, display) :: t.multiple == 0 && t.pos == axe && t.shown
  {
    var ts := Enumerate(lo, hi, axe, g, rule, display);
    EnumeratedIff(lo, hi, axe, g, rule, display, 0);
    var k :| 0 <= k < |ts| && ts[k].multiple == 0;
    TickAt(lo, hi, axe, g, rule, display, k);
    assert ts[k] in ts;
  }

  /** Whatever the graduation's sign, a drawn tick is never on the far edge,
      and a drawn tick on the near edge is the origin. */
  lemma DrawnTicksAvoidEdges(lo: int, hi: int, axe: int, g: int, rule: EdgeRule, display: TickLabel)
    requires g > 0 || (g < 0 && rule == NearAndFar)
    ensures forall t <- Enumerate(lo, hi, axe, g, rule, display) :: t.shown ==> t.pos != hi
    ensures forall t <- Enumerate(lo, hi, axe, g, rule, display) :: t.shown && t.pos == lo ==> t.multiple == 0
  {
    var ts := Enumerate(lo, hi, axe, g, rule, display);
    forall t <- ts
      ensures t.shown ==> t.pos != hi
      ensures t.shown && t.pos == lo ==> t.multiple == 0
    {
      var k :| 0 <= k < |ts| && ts[k] == t;
      TickAt(lo, hi, axe, g, rule, display, k);
      if g > 0 {
        EnumeratedIff(lo, hi, axe, g, rule, display, t.multiple);
      }
    }
  }

  /** A negative graduation over a non-empty span enumerates nothing: the
      range from `ceil((lo - axe) / g)` to `floor((hi - axe - g) / g)` is then
      empty. */
  lemma NegativeGraduationEmpty(lo: int, hi: int, axe: int, g: int, rule: EdgeRule, display: TickLabel)
    requires g < 0 && lo <= hi
    ensures Enumerate(lo, hi, axe, g, rule, display) == []
  {
    NegativeRangeEmpty(lo, hi, axe, g);
  }

  lemma NegativeRangeEmpty(lo: int, hi: int, axe: int, g: int)
    requires g < 0 && lo <= hi
    ensures LastMultiple(hi, axe, g) < FirstMultiple(lo, axe, g)
  {
    var G := -g;
    var a := lo - axe;
    var b := hi - axe - g;
    FloorDivNegated(-a, g);
    FloorDivNegated(b, g);
    FloorDivIsIntDiv(a, G);
    FloorDivIsIntDiv(-b, G);
    assert FirstMultiple(lo, axe, g) == -(a / G);
    assert LastMultiple(hi, axe, g) == (-b) / G;
    // -b = (axe - hi) - G <= (axe - lo) - G = -a - G, so (-b) / G <= (-a) / G - 1 < -(a / G).
    DivMonotone(-b, -a - G, G);
    DivShift(-a, G);
    NegDivBound(a, G);
  }

  lemma DivShift(x: int, G: int)
    requires G > 0
    ensures (x - G) / G == x / G - 1
  {
    var q := x / G;
    var r := x % G;
    assert x - G == (q - 1) * G + r;
    DivUnique(x - G, G, q - 1, r);
  }

  /** Dividing by a negative number is dividing the negated dividend by its
      absolute value. */
  lemma FloorDivNegated(a: int, g: int)
    requires g < 0
    ensures FloorDiv(a, g) == FloorDiv(-a, -g)
  {
    assert (a as real) / (g as real) == ((-a) as real) / ((-g) as real);
  }

  /** Flooring division by a positive divisor is monotone. */
  lemma DivMonotone(x: int, y: int, G: int)
    requires G > 0 && x <= y
    ensures x / G <= y / G
  {
    MulMonotone(y / G + 1, x / G, G);
  }

  /** `floor(-a / G) <= -floor(a / G)`, i.e. `floor(-x) <= ceil(-x)`. */
  lemma NegDivBound(a: int, G: int)
    requires G > 0
    ensures (-a) / G <= -(a / G)
  {
    MulMonotone((-a) / G, -(a / G), G);
  }

  /** The worked example of a centred axis on a 200 mm span with 1 cm
      graduations: multiples -10 to 9 are enumerated, and the -10 tick, which
      sits on the near edge, is the only one hidden. */
  lemma CentredTwentyCentimetres(display: TickLabel)
    ensures |Enumerate(10, 210, 110, 10, NearAndFar, display)| == 20
    ensures forall t <- Enumerate(10, 210, 110, 10, NearAndFar, display) :: -10 <= t.multiple <= 9
    ensures forall t <- Enumerate(10, 210, 110, 10, NearAndFar, display) :: t.shown <==> t.multiple != -10
  {
    assert FirstMultiple(10, 110, 10) == -10 by { FloorDivIsIntDiv(100, 10); }
    assert LastMultiple(210, 110, 10) == 9 by { FloorDivIsIntDiv(90, 10); }
    var ts := Enumerate(10, 210, 110, 10, NearAndFar, display);
    forall t <- ts
      ensures -10 <= t.multiple <= 9
      ensures t.shown <==> t.multiple != -10
    {
      var k :| 0 <= k < |ts| && ts[k] == t;
      TickAt(10, 210, 110, 10, NearAndFar, display, k);
    }
  }
}

=== FILE: wrappers.dfy ===
/** The optional and fallible values the layout model returns. */
module Wrappers {

  datatype Option<+T> = None | Some(value: T) {

    /** The wrapped value, or `default` when there is none. */
    function GetOr(default: T): T {
      match this
      case Some(v) => v
      case None => default
    }
  }

  datatype Result<+R, +E> = Success(value: R) | Failure(error: E) {

    predicate IsFailure() {
      Failure?
    }

    function PropagateFailure<U>(): Result<U, E>
      requires Failure?
    {
      Failure(error)
    }

    function Extract(): R
      requires Success?
    {
      value
    }
  }
}
